=== FILE: README.md ===
# ThoughtWeaver backend: reply clean-up and mock graph route

ThoughtWeaver turns a user's free-form text into a graph of thoughts. Its
Flask backend has one route, `POST /api/graph`. This project models two parts
of that backend:

- **`force_json`**: the clean-up a chat model's raw reply goes through before
  it reaches the JSON parser. An empty reply is rejected. The reply is trimmed,
  and a Markdown code fence around it is removed. The brace-delimited block at
  its end is cut out with `re.search(r"\{.*\}\s*$", ..., re.S)`. Commas left
  dangling before `]` or `}` are deleted with
  `re.sub(r",\s*([\]\}])", r"\1", ...)`.
- **The `graph()` route**: the request text is validated, and a blank one gets
  status 400. Without a provider, the route builds a deterministic mock graph:
  - the words of the text become up to eight topics;
  - each topic becomes a node;
  - consecutive topics are joined by a path of `related` edges with weight 0.6;
  - two insight lines are added.

  With a provider, the model's reply is cleaned by `force_json` and handed to
  the parser. Any failure there becomes the same status-500 message.

The code is pure, so the model is made of datatypes, functions and lemmas.
It has four modules:

- `Strings` (`strings.dfy`) models the Python string built-ins the code relies
  on. It covers:
  - the `str.isspace` character set;
  - `strip()` and `strip(chars)`;
  - `split()` and `sep.join`;
  - ASCII `lower()` and `title()`.
- `Lines` (`lines.dfy`) models `str.splitlines()`, including every boundary
  character it honours and `"\r\n"` as one boundary. It also models
  `"\n".join` and the first and last lines of a text.
- `ForceJson` (`force_json.dfy`) models `force_json` up to the JSON parser.
- `GraphRoute` (`graph_route.dfy`) models the route and the mock graph
  builder.

The JSON parser (`json.loads`) is a function parameter `parse` that returns
`None` on malformed input. The model's reply is the `reply` field of the
`Backend` configuration.

## Model

| member | source | states |
|---|---|---|
| Strings.IsSpace | backend/app.py:55-70 | the characters Python's `str.isspace()` accepts, collected in `Whitespace`: the set `strip()`, `split()` and the regular-expression class `\s` use here, including the information separators, next line (U+0085) and the Unicode spaces |
| Strings.StartsWith | backend/app.py:58 | `str.startswith`: the prefix fits in the text and equals its first characters |
| Strings.Strip | backend/app.py:55 | `strip()` leaves no whitespace at either end, and gives "" exactly when the text is all whitespace |
| Strings.StripSet | backend/app.py:119 | `strip(",.!?")` never lengthens the word, and neither end of the result is punctuation |
| Strings.StripSetMiddle | backend/app.py:119 | the stripped word is the middle of the word that starts after its leading punctuation run, and what is dropped on either side is all punctuation |
| Strings.StripSetEmpty | backend/app.py:119 | a word strips to "" exactly when it is all punctuation |
| Strings.SplitFields | backend/app.py:119 | every field of `split()` is non-empty and holds no whitespace |
| Strings.SplitEmpty | backend/app.py:119 | `split()` gives no fields exactly when the text is all whitespace |
| Strings.Split | backend/app.py:119 | `split()` as the maximal runs of non-whitespace in order; it has no contract of its own, and `SplitFields`, `SplitEmpty`, `SplitJoin` and `JoinSplit` state its properties |
| Strings.SplitJoin | backend/app.py:119 | `split()` undoes `" ".join` of non-empty parts that hold no separator |
| Strings.JoinSplit | backend/app.py:119 | `" ".join(s.split())` is `s` with each whitespace run written as one space and the runs at either end dropped, so `split()` loses nothing but whitespace |
| Strings.JoinWith | backend/app.py:63 | `sep.join(parts)`; it has no contract of its own, and `JoinSplit`, `SplitJoin` and the `Lines` join lemmas state its properties |
| Strings.Lower | backend/app.py:119 | `lower()` keeps the length; each upper-case letter becomes the lower-case letter whose upper case it is, and every other character is kept |
| Strings.Title | backend/app.py:127 | `title()` keeps the length, raises a letter that does not follow a letter and lowers one that does |
| Strings.TitleLower | backend/app.py:127 | title-casing only changes case: lowering the title-cased text equals lowering the text |
| Lines.IsLineBreak | backend/app.py:59 | the characters at which `str.splitlines()` ends a line, collected in `LineBreaks`: line feed, vertical tab, form feed, carriage return, the file, group and record separators, next line and the Unicode line and paragraph separators |
| Lines.SplitLines | backend/app.py:59 | `splitlines()` gives no lines exactly for the empty text |
| Lines.SplitLinesNoBreaks | backend/app.py:59 | no line of `splitlines()` holds a line boundary |
| Lines.JoinSplitLines | backend/app.py:59-63 | `"\n".join(s.splitlines())` is `s` with each boundary written as one `"\n"`, when `s` does not end in a boundary |
| Lines.AfterFirstLineOfJoin | backend/app.py:60 | after the first `"\n"` of a join comes the join of all lines but the first, which is what `lines[1:]` keeps |
| Lines.LastLineOfJoin | backend/app.py:61-62 | the text after the last `"\n"` of a join is the last line, and the text before it is the join of the others, as `lines[-1]` and `lines[:-1]` |
| ForceJson.StripFences | backend/app.py:55-63 | the result has no whitespace at either end; a reply that does not open with a fence is only trimmed |
| ForceJson.Unfence | backend/app.py:59-63 | the fence removal on a trimmed text that opens with a fence; it has no contract of its own, and `UnfenceKeepsInnerText` states what it keeps |
| ForceJson.IsFenceLine | backend/app.py:61 | a line is a closing fence when, trimmed, it starts with three backticks, as `lines[-1].strip().startswith("```")` |
| ForceJson.Kept | backend/app.py:60-62 | the lines after the first, without the last one when it is a closing fence; it has no contract of its own, and `KeptLinesJoin` states it on the joined text |
| ForceJson.StripFencesKeepsInnerText | backend/app.py:57-63 | a fenced reply becomes the trimmed text between its first line and, when that is a closing fence, its last line, stated on the normalised text without a list of lines |
| ForceJson.UnfenceKeepsInnerText | backend/app.py:59-63 | on a trimmed text, the unfenced text is the text after the first line, without the last line when that is a closing fence, trimmed |
| ForceJson.KeptLinesJoin | backend/app.py:61-63 | rejoining the kept lines drops the text after the last "\n" exactly when that line is a closing fence |
| ForceJson.OneLineFenceLeavesNothing | backend/app.py:58-63 | a fenced reply written on one line is reduced to "" |
| ForceJson.Candidate | backend/app.py:66-67 | the candidate is a suffix of the text; with a trailing block it starts at the first `{`, with no `{` before it, and ends in `}` on a trimmed text; without one it is the whole text |
| ForceJson.MatchesAt | backend/app.py:66 | where `\{.*\}\s*$` with `re.S` matches: a `{` followed later by a `}` after which only whitespace remains; a definition, related to `Candidate` by `CandidateIsLeftmostMatch` |
| ForceJson.HasBlock | backend/app.py:66-67 | the test that decides whether the search matches: the text ends in `}` up to trailing whitespace and holds a `{`; `MatchHasBlock` and `BlockMatchesAtFirstBrace` show it holds exactly when `MatchesAt` holds somewhere |
| ForceJson.MatchHasBlock | backend/app.py:66 | wherever the pattern matches, the trimmed text ends in `}` and the text holds a `{` |
| ForceJson.BlockMatchesAtFirstBrace | backend/app.py:66 | a text ending in such a block matches at its first `{` |
| ForceJson.CandidateIsLeftmostMatch | backend/app.py:66-67 | when the pattern matches anywhere, the candidate starts at its leftmost match and runs to the end; when it matches nowhere, the candidate is the text |
| ForceJson.DropTrailingCommas | backend/app.py:70 | the substitution never lengthens the text |
| ForceJson.DropTrailingCommasKeepsUnswallowed | backend/app.py:70 | which characters go: the result is the input without exactly the positions a dangling comma swallows (the comma and the whitespace up to its bracket), every other character kept in order (`KeptFrom`, `Swallowed`) |
| ForceJson.Gap | backend/app.py:70 | where the `\s*` after position `i` ends: a position strictly after `i` and at most the length |
| ForceJson.GapSkipsWhitespace | backend/app.py:70 | everything between `i` and `Gap(s, i)` is whitespace, and the character at `Gap(s, i)`, if any, is not: the first non-whitespace position after `i` |
| ForceJson.DanglingAt | backend/app.py:70 | where `,\s*([\]\}])` matches: a comma whose next non-whitespace character is `]` or `}`; a definition, counted by `DropTrailingCommasRemovesDangling` |
| ForceJson.DropTrailingCommasSubsequence | backend/app.py:70 | the result is the input with some characters deleted, in order |
| ForceJson.DropTrailingCommasKeepsOthers | backend/app.py:70 | every character other than a comma or whitespace occurs as often in the result as in the input |
| ForceJson.DropTrailingCommasRemovesDangling | backend/app.py:70 | the result has as many commas fewer as the input has dangling commas |
| ForceJson.DropTrailingCommasFixedPoint | backend/app.py:70 | the text comes back unchanged exactly when no comma dangles |
| ForceJson.DropTrailingCommasShortens | backend/app.py:70 | a text with a dangling comma comes back shorter |
| ForceJson.DropTrailingCommasNotIdempotent | backend/app.py:70 | one pass over `",,]"` leaves `",]"`, which still has a dangling comma |
| ForceJson.DropTrailingCommasKeepsFirst | backend/app.py:70 | a leading character other than a comma survives, still first |
| ForceJson.DropTrailingCommasKeepsLast | backend/app.py:70 | a trailing `]` or `}` survives, still last |
| ForceJson.Prepare | backend/app.py:52-70 | an empty reply is rejected before anything else, and only an empty one is |
| ForceJson.BraceBlockSurvives | backend/app.py:65-70 | a trimmed text ending in `}` and holding a `{` yields a text from `{` to `}` with only characters deleted |
| ForceJson.PreparedIsBraceBlock | backend/app.py:52-70 | when the unfenced reply ends in `}` and holds a `{`, the parser is given a text from `{` to `}` cut from it with only characters deleted |
| GraphRoute.UserText | backend/app.py:111-113 | the trimmed text is empty exactly when the field is missing or all whitespace |
| GraphRoute.HandleGraph | backend/app.py:111-181 | status 400 exactly for a missing or blank text; a mock graph exactly without a provider and with a non-blank text; an empty reply gives the status-500 message; the only failures are 400 and 500; the parsed reply is forwarded exactly when the reply is non-empty and parses, and then it is the parser's result |
| GraphRoute.Words | backend/app.py:119 | one word per `split()` field, in order, each the cleaned field: no longer than it, neither end punctuation, no upper-case letter |
| GraphRoute.CleanWord | backend/app.py:119 | a cleaned token is no longer than the token, neither end is punctuation, and it has no upper-case letter |
| GraphRoute.CleanWordValue | backend/app.py:119 | the cleaned token is the lowered middle of the token that starts after its leading `,.!?` run, with only `,.!?` on either side of it |
| GraphRoute.CleanPlainWord | backend/app.py:119 | a lower-case word not framed by punctuation is left as it is |
| GraphRoute.WordsOfPlainText | backend/app.py:119 | lower-case, unpunctuated words joined by spaces come back as they were |
| GraphRoute.LongWords | backend/app.py:120 | a word is kept exactly when it is longer than three characters |
| GraphRoute.LongWordsAppend | backend/app.py:120 | the long words of `a + b` are those of `a` followed by those of `b`, so each kept word keeps its place and its multiplicity |
| GraphRoute.LongWordsKeepOrder | backend/app.py:120 | two long words first occur in the same order among the long words as in the words |
| GraphRoute.Dedup | backend/app.py:120 | `dict.fromkeys` keeps each word once and no other word |
| GraphRoute.DedupInFirstOccurrenceOrder | backend/app.py:120 | the distinct words come in the order of their first occurrence |
| GraphRoute.SelectTopics | backend/app.py:120-125 | one to eight topics, either the default four or words longer than three characters |
| GraphRoute.TopicsShape | backend/app.py:120-125 | there are one to eight topics, all different, each longer than three characters |
| GraphRoute.TopicsLowerCase | backend/app.py:119-125 | topics from lower-case words are lower-case |
| GraphRoute.TopicsDefault | backend/app.py:120-125 | without a word longer than three characters, the topics are the default four |
| GraphRoute.TopicsAreFirstLongWords | backend/app.py:120-125 | with some long word, every topic is a long word, topics come in first-occurrence order, and a long word left out means eight topics, all occurring before it |
| GraphRoute.TopicsInTextOrder | backend/app.py:119-125 | with some long word, the topics are words of the text longer than three characters, in the order they first occur in the text, and a long word left out first occurs after all eight topics |
| GraphRoute.Nodes | backend/app.py:127 | one node per topic, its id the topic and its label the title-cased topic |
| GraphRoute.PathEdges | backend/app.py:129-137 | one edge fewer than topics; edge `i` goes from topic `i` to topic `i + 1`, `related`, weight 0.6 |
| GraphRoute.PathEdgesJoinIds | backend/app.py:129-137 | over distinct topics, every edge joins two topics and none joins a topic to itself |
| GraphRoute.TitleAll | backend/app.py:140 | the generator `w.title() for w in ...`: each topic title-cased, in order; `MockGraphWellFormed` relates it to the node labels |
| GraphRoute.Insights | backend/app.py:139-142 | the two insight lines; it has no contract of its own, and `MockGraphWellFormed` states them |
| GraphRoute.MockGraph | backend/app.py:126-143 | the nodes, path edges and insights built from the topics; it has no contract of its own, and `MockGraphWellFormed` and `MockGraphShape` state its properties |
| GraphRoute.MockGraphWellFormed | backend/app.py:126-142 | for any topics: node ids are the topics in order; edge `i` links node `i` to node `i + 1`; the first insight lists the labels of at most five nodes; the second gives the fixed advice |
| GraphRoute.MockGraphLabels | backend/app.py:127 | for lower-case topics, each node's label lowers back to its id |
| GraphRoute.MockGraphShape | backend/app.py:126-143 | a graph built from one to eight distinct long topics has the mock shape: no dangling or looping edge, and two insights |
| GraphRoute.MockGraphOfWordsShaped | backend/app.py:119-143 | whatever the words, their mock graph has the mock shape |
| GraphRoute.MockGraphOfWordsLabels | backend/app.py:119-143 | for lower-case words, each node's label lowers back to its id |
| GraphRoute.MockRouteAnswersWithGraph | backend/app.py:111-143 | any non-blank text without a provider gets a graph of the mock shape whose labels lower back to their ids |

## Left out

- The Flask application, CORS, `.env` loading and `app.run` are not modelled: they are framework set-up.
- `jsonify` is not modelled: the model's responses are the `Response` datatype, not HTTP bodies.
- Provider selection and the chat-completion calls are not modelled. The configuration is the `Backend` datatype, and the model's reply is its `reply` string.
- A reply whose content is `None` is not modelled: the reply is always a string.
- `json.loads` is not modelled: it is the `parse` parameter, and `None` stands for a decode error.
- The outer `except` that answers status 429 for provider errors is not modelled: those errors come from the network call.
- The status-500 "No provider configured" branch is not modelled. It cannot be reached: a client exists only for the two providers the route handles.
- A request body that is not JSON, or a `text` field that is not a string, is not modelled: the `text` field is an optional string.
- A JSON body that is not an object (`null`, a list, a number or a string) is not modelled. There `payload.get` raises at backend/app.py:112, and the framework answers with its own error.
- `Strings.Lower` and `Strings.Title`: only ASCII letters change case. Python's Unicode case mappings, including ones that change length, are not modelled.
- `Strings.Title` also treats every non-ASCII letter as a non-letter when it decides whether a letter follows a letter. So an ASCII letter after a non-ASCII one is raised where Python lowers it: the model gives `"NaïVe"` for `"naïve"`, while Python gives `"Naïve"`.
- `GraphRoute.Weight` is the real number 0.6, not a binary floating-point value.
- The node field `label` is named `caption`, because `label` is a reserved word in Dafny.
- The docstring of `force_json` says it captures the *last* JSON-looking block. When the text ends in `}`, the code starts the block at the *first* `{` of the text, and the model follows the code (`ForceJson.CandidateIsLeftmostMatch`).

=== FILE: force_json.dfy ===
/**
 * `force_json`: the clean-up a raw chat-model reply goes through before it is
 * handed to the JSON parser.  The reply is trimmed, a Markdown code fence around
 * it is removed, the brace-delimited block at its end is cut out, and commas
 * left dangling before `]` or `}` are deleted.  The parser itself is a
 * parameter: it is a library call outside this model.
 */
module ForceJson {
  import opened Strings
  import opened Lines

  const Fence := "```"

  /** A line that opens or closes a code fence once it is trimmed. */
  predicate IsFenceLine(line: string) {
    StartsWith(Strip(line), Fence)
  }

  /** Trims the reply; when it opens with a code fence, drops its first line,
      drops its last line too when that one is a closing fence, rejoins the
      remaining lines with "\n" and trims again. */
  function StripFences(text: string): (r: string)
    ensures Stripped(r, Whitespace)
    ensures !StartsWith(Strip(text), Fence) ==> r == Strip(text)
  {
    var txt := Strip(text);
    if StartsWith(txt, Fence) then Unfence(txt) else txt
  }

  /** Drops the first line of a fenced text, and its last line too when that
      one is a closing fence, then rejoins the rest with "\n" and trims it. */
  function Unfence(txt: string): string
    requires txt != []
  {
    Strip(JoinWith("\n", Kept(SplitLines(txt)[1..])))
  }

  /** The lines after the first, without the last one when it is a closing
      fence. */
  function Kept(lines: seq<string>): seq<string> {
    if |lines| > 0 && IsFenceLine(lines[|lines| - 1]) then lines[..|lines| - 1] else lines
  }

  lemma NewlineIsLineBreak()
    ensures '\n' in LineBreaks
  {
  }

  /** A trimmed text does not end with a line boundary. */
  lemma StrippedEndsOutsideLineBreaks(s: string)
    requires s != [] && Stripped(s, Whitespace)
    ensures s[|s| - 1] !in LineBreaks
  {
  }

  /** No line of a text holds a "\n". */
  lemma LinesHaveNoNewline(s: string)
    ensures forall k :: 0 <= k < |SplitLines(s)| ==> '\n' !in SplitLines(s)[k]
  {
    SplitLinesNoBreaks(s);
    NewlineIsLineBreak();
    var all := SplitLines(s);
    forall k | 0 <= k < |all| ensures '\n' !in all[k] {
      assert NoneIn(all[k], LineBreaks);
    }
  }

  lemma EmptyLineIsNoFence()
    ensures LastLine([]) == [] && !IsFenceLine([])
  {
  }

  /** A fenced reply keeps exactly the text between its first line and, when
      the last line is a closing fence, its last line: stated on the reply with
      its line boundaries normalised to "\n", without reference to a list of
      lines. */
  lemma StripFencesKeepsInnerText(text: string)
    requires StartsWith(Strip(text), Fence)
    ensures var rest := AfterFirstLine(Normalize(Strip(text)));
            StripFences(text) == if IsFenceLine(LastLine(rest)) then Strip(BeforeLastLine(rest)) else Strip(rest)
  {
    UnfenceKeepsInnerText(Strip(text));
  }

  /** `Unfence` stated on the text with its boundaries normalised. */
  lemma UnfenceKeepsInnerText(txt: string)
    requires txt != [] && Stripped(txt, Whitespace)
    ensures var rest := AfterFirstLine(Normalize(txt));
            Unfence(txt) == if IsFenceLine(LastLine(rest)) then Strip(BeforeLastLine(rest)) else Strip(rest)
  {
    StrippedEndsOutsideLineBreaks(txt);
    JoinSplitLines(txt);
    var all := SplitLines(txt);
    LinesHaveNoNewline(txt);
    AfterFirstLineOfJoin(all);
    var lines := all[1..];
    assert forall k :: 0 <= k < |lines| ==> lines[k] == all[k + 1];
    var rest := AfterFirstLine(Normalize(txt));
    assert rest == JoinWith("\n", lines);
    KeptLinesJoin(lines);
  }

  /** The lines kept after the first one, rejoined, are the joined text with
      its last line removed exactly when that line is a closing fence. */
  lemma KeptLinesJoin(lines: seq<string>)
    requires forall k :: 0 <= k < |lines| ==> '\n' !in lines[k]
    ensures var rest := JoinWith("\n", lines);
            JoinWith("\n", Kept(lines)) == if IsFenceLine(LastLine(rest)) then BeforeLastLine(rest) else rest
  {
    if |lines| > 0 {
      LastLineOfJoin(lines);
    } else {
      EmptyLineIsNoFence();
    }
  }

  /** A fenced reply written on a single line leaves nothing: its only line is
      the one that is always dropped. */
  lemma OneLineFenceLeavesNothing(text: string)
    requires StartsWith(Strip(text), Fence)
    requires NoneIn(Strip(text), LineBreaks)
    ensures StripFences(text) == []
  {
    var txt := Strip(text);
    assert Run(txt, LineBreaks, false) == |txt|;
    assert SplitLines(txt) == [txt];
  }

  /** The regular expression `\{.*\}\s*$`, with `.` matching newlines, matches
      `s` starting at position `p`: a `{` there, a `}` later on, and nothing but
      whitespace after that `}` (so `$` can match at the end). */
  ghost predicate MatchesAt(s: string, p: int) {
    && 0 <= p < |s|
    && s[p] == '{'
    && exists q :: p < q < |s| && s[q] == '}' && AllIn(s[q + 1..], Whitespace)
  }

  /** The text ends, up to trailing whitespace, with `}` and holds a `{`. */
  predicate HasBlock(s: string) {
    var body := TrimEnd(s, Whitespace);
    body != [] && body[|body| - 1] == '}' && '{' in s
  }

  /** The JSON candidate: from the first `{` to the end when the text ends in a
      brace-delimited block, otherwise the whole text. */
  function Candidate(s: string): (r: string)
    ensures |r| <= |s| && r == s[|s| - |r|..]
    ensures HasBlock(s) ==> r != [] && r[0] == '{' && '{' !in s[..|s| - |r|]
    ensures HasBlock(s) && Stripped(s, Whitespace) ==> r[|r| - 1] == '}'
    ensures !HasBlock(s) ==> r == s
  {
    if HasBlock(s) then s[Run(s, {'{'}, false)..] else s
  }

  /** Neither brace nor `]` is whitespace. */
  lemma ClosersAreNotWhitespace()
    ensures '{' !in Whitespace && '}' !in Whitespace && ']' !in Whitespace
  {
  }

  /** Wherever the pattern matches, the text ends in a brace-delimited block. */
  lemma MatchHasBlock(s: string, p: int)
    requires MatchesAt(s, p)
    ensures HasBlock(s)
  {
    ClosersAreNotWhitespace();
    var q :| p < q < |s| && s[q] == '}' && AllIn(s[q + 1..], Whitespace);
    TrimEndAfterLast(s, Whitespace, q);
    assert s[p] == '{';
  }

  /** A text ending in a brace-delimited block matches at its first `{`. */
  lemma BlockMatchesAtFirstBrace(s: string)
    requires HasBlock(s)
    ensures MatchesAt(s, Run(s, {'{'}, false))
  {
    ClosersAreNotWhitespace();
    var body := TrimEnd(s, Whitespace);
    var b := |body|;
    var i := Run(s, {'{'}, false);
    assert i < |s| by {
      var k :| 0 <= k < |s| && s[k] == '{';
      assert s[k] in {'{'};
    }
    assert s[i] == '{' by {
      assert s[i] in {'{'};
    }
    assert s[b - 1] == '}';
    BeforeCoveredTail(s, Whitespace, b, i);
    assert s[b..] == s[b - 1 + 1..];
  }

  /** `Candidate` is what `re.search` returns: when the pattern matches
      anywhere, the candidate starts at the leftmost match and runs to the end
      of the text (the `.*` is greedy); when it matches nowhere, the candidate
      is the text itself. */
  lemma CandidateIsLeftmostMatch(s: string)
    ensures (exists p :: MatchesAt(s, p)) ==>
              && MatchesAt(s, |s| - |Candidate(s)|)
              && forall p :: 0 <= p < |s| - |Candidate(s)| ==> !MatchesAt(s, p)
    ensures (forall p :: !MatchesAt(s, p)) ==> Candidate(s) == s
  {
    if HasBlock(s) {
      BlockMatchesAtFirstBrace(s);
      assert |s| - |Candidate(s)| == Run(s, {'{'}, false);
    } else {
      forall p | MatchesAt(s, p) ensures false {
        MatchHasBlock(s, p);
      }
    }
  }

  const Closers: set<char> := {']', '}'}

  /** The pattern `,\s*([\]\}])` matches at position `i`: a comma whose next
      non-whitespace character is `]` or `}`. */
  predicate DanglingAt(s: string, i: nat)
    requires i < |s|
  {
    s[i] == ',' && Gap(s, i) < |s| && s[Gap(s, i)] in Closers
  }

  /** Index of the first character after position `i` that is not whitespace,
      or `|s|` when there is none. */
  function Gap(s: string, i: nat): (j: nat)
    requires i < |s|
    ensures i < j <= |s|
  {
    i + 1 + Run(s[i + 1..], Whitespace, true)
  }

  /** The positions after `i` and before `Gap(s, i)` are whitespace, and the
      one at `Gap(s, i)`, if any, is not. */
  lemma GapSkipsWhitespace(s: string, i: nat)
    requires i < |s|
    ensures AllIn(s[i + 1..Gap(s, i)], Whitespace)
    ensures Gap(s, i) < |s| ==> s[Gap(s, i)] !in Whitespace
  {
    var t := s[i + 1..];
    var n := Run(t, Whitespace, true);
    assert s[i + 1..Gap(s, i)] == t[..n];
    if Gap(s, i) < |s| {
      assert s[Gap(s, i)] == t[n];
    }
  }

  /** `a` is `b` with some of its characters deleted. */
  ghost predicate Subsequence(a: string, b: string)
    decreases |b|
  {
    if a == [] then true
    else if b == [] then false
    else (a[0] == b[0] && Subsequence(a[1..], b[1..])) || Subsequence(a, b[1..])
  }

  lemma {:induction false} SubsequenceSkip(a: string, p: string, b: string)
    requires Subsequence(a, b)
    ensures Subsequence(a, p + b)
    decreases |p|
  {
    if p == [] {
      assert p + b == b;
    } else {
      SubsequenceSkip(a, p[1..], b);
      assert (p + b)[1..] == p[1..] + b;
    }
  }

  /** A subsequence of a suffix is a subsequence of the whole text. */
  lemma SubsequenceOfSuffix(a: string, b: string, k: nat)
    requires k <= |b| && Subsequence(a, b[k..])
    ensures Subsequence(a, b)
  {
    SubsequenceSkip(a, b[..k], b[k..]);
    assert b[..k] + b[k..] == b;
  }

  /** `re.sub(r",\s*([\]\}])", r"\1", s)`: scanning left to right, every
      dangling comma is deleted together with the whitespace after it, the
      bracket is kept, and the scan resumes after the bracket. */
  function DropTrailingCommas(s: string): (r: string)
    ensures |r| <= |s|
    decreases |s|
  {
    if s == [] then []
    else if DanglingAt(s, 0) then
      var j := Gap(s, 0);
      [s[j]] + DropTrailingCommas(s[j + 1..])
    else
      [s[0]] + DropTrailingCommas(s[1..])
  }

  /** A dangling comma is followed by a run of whitespace, which holds no
      comma, and then by its bracket. */
  lemma DanglingRun(s: string)
    requires s != [] && DanglingAt(s, 0)
    ensures var j := Gap(s, 0);
            && j < |s| && s[j] in Closers && AllIn(s[1..j], Whitespace) && ',' !in s[1..j]
  {
    var j := Gap(s, 0);
    forall k | 0 <= k < j - 1 ensures s[1..j][k] in Whitespace {
      assert s[1..j][k] == s[1..][k];
    }
    CommaIsNotSpace();
    NotInAllIn(s[1..j], Whitespace, ',');
  }

  lemma CommaIsNotSpace()
    ensures ',' !in Whitespace
  {
  }

  /** A comma that dangles is dropped with the whitespace after it, and the
      scan goes on after the bracket it dangled before. */
  lemma DanglingStep(s: string)
    requires s != [] && DanglingAt(s, 0)
    ensures var j := Gap(s, 0);
            && j < |s| && s[j] in Closers && AllIn(s[1..j], Whitespace) && ',' !in s[1..j]
            && DropTrailingCommas(s) == [s[j]] + DropTrailingCommas(s[j + 1..])
  {
    DanglingRun(s);
  }

  /** Any other character is kept and the scan goes on after it. */
  lemma PlainStep(s: string)
    requires s != [] && !DanglingAt(s, 0)
    ensures DropTrailingCommas(s) == [s[0]] + DropTrailingCommas(s[1..])
  {
  }

  /** What is kept stays in order: the result is the input with some
      characters deleted. */
  lemma {:induction false} DropTrailingCommasSubsequence(s: string)
    ensures Subsequence(DropTrailingCommas(s), s)
    decreases |s|
  {
    if s != [] {
      var r := DropTrailingCommas(s);
      if DanglingAt(s, 0) {
        var j := Gap(s, 0);
        DanglingStep(s);
        DropTrailingCommasSubsequence(s[j + 1..]);
        assert r[1..] == DropTrailingCommas(s[j + 1..]);
        assert s[j..] == [s[j]] + s[j + 1..];
        assert Subsequence(r, s[j..]);
        SubsequenceOfSuffix(r, s, j);
      } else {
        PlainStep(s);
        DropTrailingCommasSubsequence(s[1..]);
        assert r[1..] == DropTrailingCommas(s[1..]);
      }
    }
  }

  lemma NotInAllIn(run: string, cs: set<char>, c: char)
    requires AllIn(run, cs) && c !in cs
    ensures c !in run
  {
  }

  lemma CountCons(x: char, t: string, c: char)
    ensures multiset([x] + t)[c] == (if x == c then 1 else 0) + multiset(t)[c]
  {
    assert multiset([x] + t) == multiset([x]) + multiset(t);
  }

  lemma CountFirst(s: string, c: char)
    requires s != []
    ensures multiset(s)[c] == (if s[0] == c then 1 else 0) + multiset(s[1..])[c]
  {
    assert s == [s[0]] + s[1..];
    CountCons(s[0], s[1..], c);
  }

  /** Counting `c` in a text whose characters between the first and the `j`th
      are not `c`. */
  lemma CountAfterSkip(s: string, j: nat, c: char)
    requires 1 <= j < |s| && c !in s[1..j]
    ensures multiset(s)[c] == (if s[0] == c then 1 else 0) + (if s[j] == c then 1 else 0) + multiset(s[j + 1..])[c]
  {
    assert s == [s[0]] + (s[1..j] + ([s[j]] + s[j + 1..]));
    CountCons(s[0], s[1..j] + ([s[j]] + s[j + 1..]), c);
    assert multiset(s[1..j] + ([s[j]] + s[j + 1..])) == multiset(s[1..j]) + multiset([s[j]] + s[j + 1..]);
    CountCons(s[j], s[j + 1..], c);
  }

  /** Only commas and whitespace are deleted: every other character occurs as
      often in the result as in the input, brackets included. */
  lemma {:induction false} DropTrailingCommasKeepsOthers(s: string, c: char)
    requires c != ',' && c !in Whitespace
    ensures multiset(DropTrailingCommas(s))[c] == multiset(s)[c]
    decreases |s|
  {
    if s == [] {
    } else if DanglingAt(s, 0) {
      var j := Gap(s, 0);
      DanglingStep(s);
      DropTrailingCommasKeepsOthers(s[j + 1..], c);
      NotInAllIn(s[1..j], Whitespace, c);
      CountAfterSkip(s, j, c);
      CountCons(s[j], DropTrailingCommas(s[j + 1..]), c);
    } else {
      PlainStep(s);
      DropTrailingCommasKeepsOthers(s[1..], c);
      CountFirst(s, c);
      CountCons(s[0], DropTrailingCommas(s[1..]), c);
    }
  }

  /** Whether position `i` of `s[m..]` is dangling depends only on the text from
      there on. */
  lemma DanglingShift(s: string, m: nat, i: nat)
    requires m <= i < |s|
    ensures DanglingAt(s, i) == DanglingAt(s[m..], i - m)
  {
    assert s[m..][i - m + 1..] == s[i + 1..];
  }

  /** The substitution changes the text exactly when some comma dangles: a text
      without one comes back unchanged, and a text with one comes back shorter. */
  lemma {:induction false} DropTrailingCommasFixedPoint(s: string)
    ensures DropTrailingCommas(s) == s <==> forall i :: 0 <= i < |s| ==> !DanglingAt(s, i)
    decreases |s|
  {
    if (forall i :: 0 <= i < |s| ==> !DanglingAt(s, i)) {
      DropTrailingCommasUnchanged(s);
    } else {
      var i :| 0 <= i < |s| && DanglingAt(s, i);
      DropTrailingCommasShortens(s, i);
    }
  }

  lemma {:induction false} DropTrailingCommasUnchanged(s: string)
    requires forall i :: 0 <= i < |s| ==> !DanglingAt(s, i)
    ensures DropTrailingCommas(s) == s
    decreases |s|
  {
    if s != [] {
      assert !DanglingAt(s, 0);
      forall i | 0 <= i < |s| - 1 ensures !DanglingAt(s[1..], i) {
        DanglingShift(s, 1, i + 1);
      }
      DropTrailingCommasUnchanged(s[1..]);
      assert s == [s[0]] + s[1..];
    }
  }

  lemma {:induction false} DropTrailingCommasShortens(s: string, i: nat)
    requires i < |s| && DanglingAt(s, i)
    ensures |DropTrailingCommas(s)| < |s|
    decreases |s|
  {
    if DanglingAt(s, 0) {
      DanglingStep(s);
    } else {
      PlainStep(s);
      DanglingShift(s, 1, i);
      DropTrailingCommasShortens(s[1..], i - 1);
    }
  }

  /** Position `i` is deleted by the substitution: some dangling comma at or
      before it reaches past it, so `i` is that comma or whitespace after it. */
  ghost predicate Swallowed(s: string, i: nat)
    requires i < |s|
  {
    exists c :: 0 <= c <= i && DanglingAt(s, c) && i < Gap(s, c)
  }

  /** The characters of `s` from position `i` on that no dangling comma
      swallows, in order. */
  ghost function KeptFrom(s: string, i: nat): string
    requires i <= |s|
    decreases |s| - i
  {
    if i == |s| then []
    else if Swallowed(s, i) then KeptFrom(s, i + 1)
    else [s[i]] + KeptFrom(s, i + 1)
  }

  /** The scan can stand at `m`: no dangling comma before `m` reaches past it. */
  ghost predicate ScanPoint(s: string, m: nat)
    requires m <= |s|
  {
    forall c :: 0 <= c < m && DanglingAt(s, c) ==> Gap(s, c) <= m
  }

  lemma GapShift(s: string, m: nat, i: nat)
    requires m <= i < |s|
    ensures Gap(s[m..], i - m) == Gap(s, i) - m
  {
    assert s[m..][i - m + 1..] == s[i + 1..];
  }

  /** The scan at a dangling comma `m` drops it with its whitespace. */
  lemma DanglingStepAt(s: string, m: nat)
    requires m < |s| && DanglingAt(s, m)
    ensures Gap(s, m) < |s|
    ensures DropTrailingCommas(s[m..]) == [s[Gap(s, m)]] + DropTrailingCommas(s[Gap(s, m) + 1..])
  {
    DanglingShift(s, m, m);
    GapShift(s, m, m);
    DanglingStep(s[m..]);
    assert s[m..][Gap(s, m) - m + 1..] == s[Gap(s, m) + 1..];
  }

  /** The scan at any other position keeps its character. */
  lemma PlainStepAt(s: string, m: nat)
    requires m < |s| && !DanglingAt(s, m)
    ensures DropTrailingCommas(s[m..]) == [s[m]] + DropTrailingCommas(s[m + 1..])
  {
    DanglingShift(s, m, m);
    PlainStep(s[m..]);
    assert s[m..][1..] == s[m + 1..];
  }

  /** Nothing between a dangling comma and its bracket, the bracket included,
      is itself a dangling comma. */
  lemma InsideRunNotDangling(s: string, m: nat, c: nat)
    requires m < |s| && DanglingAt(s, m) && m < c <= Gap(s, m)
    ensures c < |s| && !DanglingAt(s, c)
  {
    if c < Gap(s, m) {
      GapSkipsWhitespace(s, m);
      assert s[c] == s[m + 1..Gap(s, m)][c - m - 1];
      CommaIsNotSpace();
    }
  }

  /** A position a dangling comma reaches is not kept. */
  lemma SwallowedNotKept(s: string, c: nat, m: nat)
    requires c <= m < |s| && DanglingAt(s, c) && m < Gap(s, c)
    ensures KeptFrom(s, m) == KeptFrom(s, m + 1)
  {
    assert Swallowed(s, m);
  }

  /** The positions from `m` up to the bracket of the dangling comma `c` are
      all swallowed, so none of them is kept. */
  lemma {:induction false} SkipRun(s: string, c: nat, m: nat, g: nat)
    requires c < |s| && DanglingAt(s, c) && g == Gap(s, c) && c <= m <= g
    ensures KeptFrom(s, m) == KeptFrom(s, g)
    decreases g - m
  {
    if m < g {
      SwallowedNotKept(s, c, m);
      SkipRun(s, c, m + 1, g);
    }
  }

  /** At a scan point `m` with a dangling comma, everything up to its
      bracket is swallowed, the bracket is kept, and the scan can stand after
      the bracket. */
  lemma DanglingKept(s: string, m: nat)
    requires m < |s| && ScanPoint(s, m) && DanglingAt(s, m)
    ensures Gap(s, m) < |s|
    ensures KeptFrom(s, m) == [s[Gap(s, m)]] + KeptFrom(s, Gap(s, m) + 1)
    ensures ScanPoint(s, Gap(s, m) + 1)
  {
    var j := Gap(s, m);
    SkipRun(s, m, m, j);
    forall c | 0 <= c <= j && DanglingAt(s, c) ensures Gap(s, c) <= j {
      if m < c {
        InsideRunNotDangling(s, m, c);
      }
    }
    assert !Swallowed(s, j);
  }

  /** At a scan point `m` with no dangling comma, the character is kept and
      the scan can stand after it. */
  lemma PlainKept(s: string, m: nat)
    requires m < |s| && ScanPoint(s, m) && !DanglingAt(s, m)
    ensures KeptFrom(s, m) == [s[m]] + KeptFrom(s, m + 1)
    ensures ScanPoint(s, m + 1)
  {
    assert !Swallowed(s, m);
  }

  /** Where the scan goes on after position `m`: after the bracket of a
      dangling comma, after any other character. */
  function Next(s: string, m: nat): (n: nat)
    requires m < |s|
    ensures m < n <= |s|
  {
    if DanglingAt(s, m) then Gap(s, m) + 1 else m + 1
  }

  /** After one step from a scan point the scan stands at a scan point. */
  lemma NextScanPoint(s: string, m: nat)
    requires m < |s| && ScanPoint(s, m)
    ensures ScanPoint(s, Next(s, m))
  {
    if DanglingAt(s, m) {
      DanglingKept(s, m);
    } else {
      PlainKept(s, m);
    }
  }

  /** The scan and the filter agree from a scan point `m` on when they agree
      from the next one on. */
  lemma ScanStep(s: string, m: nat)
    requires m < |s| && ScanPoint(s, m)
    requires DropTrailingCommas(s[Next(s, m)..]) == KeptFrom(s, Next(s, m))
    ensures DropTrailingCommas(s[m..]) == KeptFrom(s, m)
  {
    if DanglingAt(s, m) {
      DanglingStepAt(s, m);
      DanglingKept(s, m);
    } else {
      PlainStepAt(s, m);
      PlainKept(s, m);
    }
  }

  lemma {:induction false} KeptFromScan(s: string, m: nat)
    requires m <= |s| && ScanPoint(s, m)
    ensures DropTrailingCommas(s[m..]) == KeptFrom(s, m)
    decreases |s| - m
  {
    if m == |s| {
      assert s[m..] == [];
    } else {
      NextScanPoint(s, m);
      KeptFromScan(s, Next(s, m));
      ScanStep(s, m);
    }
  }

  /** Which characters go: the result is the input without exactly the
      positions some dangling comma swallows, the comma itself and the
      whitespace between it and its bracket; every other character is kept,
      in order. */
  lemma DropTrailingCommasKeepsUnswallowed(s: string)
    ensures DropTrailingCommas(s) == KeptFrom(s, 0)
  {
    KeptFromScan(s, 0);
    assert s[0..] == s;
  }

  /** How many commas of `s` dangle. */
  function DanglingCount(s: string): nat
    decreases |s|
  {
    if s == [] then 0 else (if DanglingAt(s, 0) then 1 else 0) + DanglingCount(s[1..])
  }

  lemma {:induction false} DanglingCountSkip(s: string, m: nat)
    requires m <= |s|
    requires forall i :: 0 <= i < m ==> !DanglingAt(s, i)
    ensures DanglingCount(s) == DanglingCount(s[m..])
    decreases m
  {
    if m > 0 {
      forall i | 0 <= i < m - 1 ensures !DanglingAt(s[1..], i) {
        DanglingShift(s, 1, i + 1);
      }
      DanglingCountSkip(s[1..], m - 1);
      assert s[1..][m - 1..] == s[m..];
    }
  }

  /** No comma dangles between a dangling comma and its bracket. */
  lemma DanglingCountStep(s: string)
    requires s != [] && DanglingAt(s, 0)
    ensures var j := Gap(s, 0);
            j < |s| && DanglingCount(s) == 1 + DanglingCount(s[j + 1..])
  {
    var j := Gap(s, 0);
    DanglingRun(s);
    var run := s[1..j];
    forall i | 0 <= i < j ensures !DanglingAt(s[1..], i) {
      if i < j - 1 { assert s[1..][i] == run[i]; } else { assert s[1..][i] == s[j]; }
    }
    DanglingCountSkip(s[1..], j);
    assert s[1..][j..] == s[j + 1..];
  }

  /** The result has as many commas fewer as the input has dangling commas. */
  lemma {:induction false} DropTrailingCommasRemovesDangling(s: string)
    ensures multiset(DropTrailingCommas(s))[','] + DanglingCount(s) == multiset(s)[',']
    decreases |s|
  {
    if s == [] {
    } else if DanglingAt(s, 0) {
      var j := Gap(s, 0);
      DanglingStep(s);
      DanglingCountStep(s);
      DropTrailingCommasRemovesDangling(s[j + 1..]);
      CountAfterSkip(s, j, ',');
      CountCons(s[j], DropTrailingCommas(s[j + 1..]), ',');
    } else {
      PlainStep(s);
      DropTrailingCommasRemovesDangling(s[1..]);
      CountFirst(s, ',');
      CountCons(s[0], DropTrailingCommas(s[1..]), ',');
    }
  }

  /** One pass is not always enough: deleting the last of two commas makes the
      first one dangle. */
  lemma DropTrailingCommasNotIdempotent()
    ensures DropTrailingCommas(",,]") == ",]"
    ensures DropTrailingCommas(DropTrailingCommas(",,]")) == "]"
  {
    CommaIsNotSpace();
    ClosersAreNotWhitespace();
    var t := ",]";
    assert Run(t[1..], Whitespace, true) == 0;
    assert DanglingAt(t, 0);
    DanglingStep(t);
    assert DropTrailingCommas(t) == "]";
    var s := ",,]";
    assert s[1..] == t;
    assert Run(s[1..], Whitespace, true) == 0;
    assert !DanglingAt(s, 0);
    PlainStep(s);
  }


  /** A leading character other than a comma survives the substitution. */
  lemma DropTrailingCommasKeepsFirst(s: string)
    requires s != [] && s[0] != ','
    ensures DropTrailingCommas(s) != [] && DropTrailingCommas(s)[0] == s[0]
  {
    PlainStep(s);
  }

  /** A trailing bracket survives the substitution. */
  lemma {:induction false} DropTrailingCommasKeepsLast(s: string)
    requires s != [] && Last(s) in Closers
    ensures DropTrailingCommas(s) != [] && Last(DropTrailingCommas(s)) == Last(s)
    decreases |s|
  {
    if DanglingAt(s, 0) {
      var j := Gap(s, 0);
      DanglingStep(s);
      if j + 1 < |s| {
        DropTrailingCommasKeepsLast(s[j + 1..]);
        assert Last(s[j + 1..]) == Last(s);
      }
    } else {
      PlainStep(s);
      if |s| > 1 {
        DropTrailingCommasKeepsLast(s[1..]);
        assert Last(s[1..]) == Last(s);
      }
    }
  }

  /** The text `force_json` hands to the JSON parser, or the empty-reply error
      it raises before looking at the text. */
  datatype Prepared = EmptyReply | ToParse(text: string)

  /** The clean-up pipeline: an empty reply is rejected; any other reply is
      unfenced, cut down to its trailing brace-delimited block and freed of
      dangling commas. */
  function Prepare(text: string): (r: Prepared)
    ensures r.EmptyReply? <==> text == []
  {
    if text == [] then EmptyReply
    else ToParse(DropTrailingCommas(Candidate(StripFences(text))))
  }

  /** A trimmed text that ends in `}` and holds a `{` is cut down to a text
      that starts with `{` and ends with `}`, with only characters deleted. */
  lemma BraceBlockSurvives(t: string)
    requires Stripped(t, Whitespace) && t != [] && Last(t) == '}' && '{' in t
    ensures var p := DropTrailingCommas(Candidate(t));
            && p != [] && p[0] == '{' && Last(p) == '}'
            && Subsequence(p, t)
  {
    StrippedBlock(t);
    var c := Candidate(t);
    BlockKeepsBraces(c);
    SubsequenceOfSuffix(DropTrailingCommas(c), t, |t| - |c|);
  }

  /** A trimmed text that ends in `}` and holds a `{` ends in a block. */
  lemma StrippedBlock(t: string)
    requires Stripped(t, Whitespace) && t != [] && Last(t) == '}' && '{' in t
    ensures HasBlock(t)
  {
    TrimEndAfterLast(t, Whitespace, |t| - 1);
  }

  /** A text from `{` to `}` keeps both braces through the substitution. */
  lemma BlockKeepsBraces(c: string)
    requires c != [] && c[0] == '{' && Last(c) == '}'
    ensures var p := DropTrailingCommas(c);
            p != [] && p[0] == '{' && Last(p) == '}' && Subsequence(p, c)
  {
    assert '}' in Closers;
    DropTrailingCommasKeepsFirst(c);
    DropTrailingCommasKeepsLast(c);
    DropTrailingCommasSubsequence(c);
  }

  /** When the unfenced reply ends in `}` and holds a `{`, the parser is given
      a text that starts with `{` and ends with `}`, cut from that reply with
      only characters deleted. */
  lemma PreparedIsBraceBlock(text: string)
    requires text != []
    requires var t := StripFences(text); t != [] && Last(t) == '}' && '{' in t
    ensures var p := Prepare(text).text;
            && p != [] && p[0] == '{' && Last(p) == '}'
            && Subsequence(p, StripFences(text))
  {
    BraceBlockSurvives(StripFences(text));
  }
}

=== FILE: graph_route.dfy ===
/**
 * The `POST /api/graph` route.  A blank request text is rejected with status
 * 400.  Without a chat-model provider the route builds a deterministic mock
 * graph from the words of the text; with one, it cleans the model's reply with
 * `force_json` and forwards what the JSON parser makes of it.
 */
module GraphRoute {
  import opened Strings
  import opened ForceJson

  datatype Option<T> = None | Some(value: T)

  /** A node; `caption` is the JSON field `label` (a reserved word here). */
  datatype Node = Node(id: string, caption: string)
  datatype Edge = Edge(from: string, to: string, relation: string, weight: real)
  datatype Graph = Graph(nodes: seq<Node>, edges: seq<Edge>, insights: seq<string>)

  /** The route's answer: a mock graph, the parsed model reply forwarded as it
      is, or an error payload with its HTTP status. */
  datatype Response<J> = Built(graph: Graph) | Forwarded(data: J) | Failed(status: nat, message: string)

  /** The server's configuration.  Without a provider the route answers with the
      mock graph; with one, `reply` is what the chat model answered. */
  datatype Backend = Mock | Model(reply: string)

  const Punctuation: set<char> := {',', '.', '!', '?'}
  const DefaultTopics: seq<string> := ["thoughts", "focus", "energy", "sleep"]
  const MaxTopics: nat := 8
  const InsightTopics: nat := 5
  const MinWordLength: nat := 3
  const Relation := "related"
  const Weight: real := 0.6
  const NoTextMessage := "No text provided"
  const InvalidJsonMessage := "Model returned invalid JSON. Please try again."
  const Advice := "Try grouping related items and addressing one at a time."

  function Min(a: nat, b: nat): nat {
    if a <= b then a else b
  }

  predicate Distinct<T(==)>(s: seq<T>) {
    forall i, j :: 0 <= i < j < |s| ==> s[i] != s[j]
  }

  /** Position of the first occurrence of `x` in `s`. */
  function FirstIndex<T(==)>(s: seq<T>, x: T): (i: nat)
    requires x in s
    ensures i < |s| && s[i] == x
    ensures forall k :: 0 <= k < i ==> s[k] != x
  {
    if s[0] == x then 0 else 1 + FirstIndex(s[1..], x)
  }

  /** The request's `text` field, trimmed; a missing field reads as "". */
  function UserText(text: Option<string>): (r: string)
    ensures r == [] <==> text.None? || AllIn(text.value, Whitespace)
  {
    match text
    case None => ""
    case Some(t) => Strip(t)
  }

  /** The words of the text: split at whitespace, `,.!?` trimmed from both ends
      of each, then lower-cased. */
  function Words(userText: string): (r: seq<string>)
    ensures |r| == |Split(userText, Whitespace)|
    ensures forall k :: 0 <= k < |r| ==> |r[k]| <= |Split(userText, Whitespace)[k]|
    ensures forall k :: 0 <= k < |r| ==> Stripped(r[k], Punctuation)
    ensures forall k, c :: 0 <= k < |r| && 0 <= c < |r[k]| ==> !IsUpper(r[k][c])
    ensures forall k :: 0 <= k < |r| ==> r[k] == CleanWord(Split(userText, Whitespace)[k])
  {
    CleanWords(Split(userText, Whitespace))
  }

  /** Each token cleaned, in order. */
  function CleanWords(tokens: seq<string>): (r: seq<string>)
    ensures |r| == |tokens|
    ensures forall k :: 0 <= k < |r| ==> r[k] == CleanWord(tokens[k])
    decreases |tokens|
  {
    if tokens == [] then [] else [CleanWord(tokens[0])] + CleanWords(tokens[1..])
  }

  /** One token with `,.!?` trimmed from both ends, then lower-cased. */
  function CleanWord(token: string): (r: string)
    ensures |r| <= |token| && Stripped(r, Punctuation)
    ensures forall c :: 0 <= c < |r| ==> !IsUpper(r[c])
  {
    LowerKeepsPunctuation(StripSet(token, Punctuation));
    Lower(StripSet(token, Punctuation))
  }

  /** Where the cleaned token starts: after the token's leading `,.!?`. */
  function Lead(token: string): nat {
    Run(token, Punctuation, true)
  }

  /** The cleaned token is the lowered middle of the token that starts after
      its leading punctuation, and only punctuation lies on either side. */
  lemma CleanWordValue(token: string)
    ensures Lead(token) + |CleanWord(token)| <= |token|
    ensures CleanWord(token) == Lower(token[Lead(token)..Lead(token) + |CleanWord(token)|])
    ensures AllIn(token[..Lead(token)], Punctuation)
    ensures AllIn(token[Lead(token) + |CleanWord(token)|..], Punctuation)
  {
    var m := StripSet(token, Punctuation);
    StripSetMiddle(token, Punctuation);
    var i, r := Lead(token), CleanWord(token);
    assert r == Lower(m);
    assert |r| == |m|;
    var mid := token[i..i + |r|];
    assert mid == m;
    assert r == Lower(mid);
  }

  /** A word that is already lower-case and not framed by `,.!?` is left as
      it is. */
  lemma CleanPlainWord(w: string)
    requires Stripped(w, Punctuation)
    requires forall c :: 0 <= c < |w| ==> !IsUpper(w[c])
    ensures CleanWord(w) == w
  {
    assert Run(w, Punctuation, true) == 0;
    assert RunEnd(w, Punctuation, true) == 0;
    assert StripSet(w, Punctuation) == w;
    LowerOfLower(w);
  }

  /** Words that are already lower-case, free of whitespace and not framed by
      `,.!?` come back unchanged from the text that joins them with spaces. */
  lemma WordsOfPlainText(parts: seq<string>)
    requires forall k :: 0 <= k < |parts| ==> parts[k] != [] && NoneIn(parts[k], Whitespace)
    requires forall k :: 0 <= k < |parts| ==> Stripped(parts[k], Punctuation)
    requires forall k, c :: 0 <= k < |parts| && 0 <= c < |parts[k]| ==> !IsUpper(parts[k][c])
    ensures Words(JoinWith(" ", parts)) == parts
  {
    SpaceIsWhitespace();
    SplitJoin(parts, Whitespace);
    CleanPlainWords(parts);
  }

  lemma CleanPlainWords(parts: seq<string>)
    requires forall k :: 0 <= k < |parts| ==> Stripped(parts[k], Punctuation)
    requires forall k, c :: 0 <= k < |parts| && 0 <= c < |parts[k]| ==> !IsUpper(parts[k][c])
    ensures CleanWords(parts) == parts
  {
    var r := CleanWords(parts);
    forall k | 0 <= k < |parts| ensures r[k] == parts[k] {
      CleanPlainWord(parts[k]);
    }
  }

  /** Lower-casing neither creates nor removes a `,.!?` at either end. */
  lemma LowerKeepsPunctuation(w: string)
    requires Stripped(w, Punctuation)
    ensures Stripped(Lower(w), Punctuation)
  {
    if w != [] {
      assert Lower(w)[0] == LowerChar(w[0]);
      assert Last(Lower(w)) == LowerChar(Last(w));
    }
  }

  /** The words longer than three characters, in order. */
  function LongWords(words: seq<string>): (r: seq<string>)
    ensures forall w :: w in r <==> w in words && |w| > MinWordLength
  {
    if words == [] then []
    else (if |words[0]| > MinWordLength then [words[0]] else []) + LongWords(words[1..])
  }

  /** Filtering distributes over concatenation: the long words of `a + b`
      are those of `a` followed by those of `b`, so each word is kept in place
      and as often as it occurs. */
  lemma {:induction false} LongWordsAppend(a: seq<string>, b: seq<string>)
    ensures LongWords(a + b) == LongWords(a) + LongWords(b)
    decreases |a|
  {
    if a == [] {
      assert a + b == b;
    } else {
      assert (a + b)[0] == a[0] && (a + b)[1..] == a[1..] + b;
      LongWordsAppend(a[1..], b);
    }
  }

  /** Two long words come in the same order among the long words as in the
      words they were taken from. */
  lemma {:induction false} LongWordsKeepOrder(words: seq<string>, a: string, b: string)
    requires a in words && |a| > MinWordLength
    requires b in words && |b| > MinWordLength
    ensures a in LongWords(words) && b in LongWords(words)
    ensures FirstIndex(LongWords(words), a) < FirstIndex(LongWords(words), b)
            <==> FirstIndex(words, a) < FirstIndex(words, b)
    decreases |words|
  {
    var w, rest := words[0], words[1..];
    var long := LongWords(words);
    if w != a && w != b {
      assert a in rest && b in rest;
      LongWordsKeepOrder(rest, a, b);
      if |w| > MinWordLength {
        assert long[0] == w && long[1..] == LongWords(rest);
      } else {
        assert long == LongWords(rest);
      }
    }
  }

  /** `list(dict.fromkeys(words))`: each word once, at its first occurrence. */
  function Dedup(s: seq<string>): (r: seq<string>)
    ensures Distinct(r)
    ensures forall x :: x in r <==> x in s
  {
    if s == [] then []
    else
      var d := Dedup(s[..|s| - 1]);
      var x := s[|s| - 1];
      if x in d then d else d + [x]
  }

  lemma FirstIndexOfPrefix(s: seq<string>, n: nat, x: string)
    requires n <= |s| && x in s[..n]
    ensures FirstIndex(s, x) == FirstIndex(s[..n], x)
  {
    var i := FirstIndex(s[..n], x);
    assert s[i] == x;
    assert forall k :: 0 <= k < i ==> s[k] == s[..n][k];
  }

  /** `Dedup` lists the distinct values in the order of their first occurrence. */
  lemma {:induction false} DedupInFirstOccurrenceOrder(s: seq<string>)
    ensures forall i, j :: 0 <= i < j < |Dedup(s)| ==>
              FirstIndex(s, Dedup(s)[i]) < FirstIndex(s, Dedup(s)[j])
    decreases |s|
  {
    if s != [] {
      var n := |s| - 1;
      var pre := s[..n];
      var d := Dedup(pre);
      var x := s[n];
      DedupInFirstOccurrenceOrder(pre);
      forall y | y in d ensures FirstIndex(s, y) == FirstIndex(pre, y) && FirstIndex(pre, y) < n {
        FirstIndexOfPrefix(s, n, y);
      }
      var r := Dedup(s);
      assert r == if x in d then d else d + [x];
      forall i, j | 0 <= i < j < |r| ensures FirstIndex(s, r[i]) < FirstIndex(s, r[j]) {
        assert r[i] == d[i] && d[i] in d;
        if j < |d| {
          assert r[j] == d[j] && d[j] in d;
        } else {
          assert r[j] == x && x !in pre;
          assert FirstIndex(s, x) == n;
        }
      }
    }
  }

  /** The topics of the mock graph: the first eight distinct words longer than
      three characters, or a fixed default when there is none. */
  function SelectTopics(words: seq<string>): (r: seq<string>)
    ensures 1 <= |r| <= MaxTopics
    ensures r == DefaultTopics || forall k :: 0 <= k < |r| ==> r[k] in LongWords(words)
  {
    var unique := Dedup(LongWords(words));
    var kept := unique[..Min(MaxTopics, |unique|)];
    if kept == [] then DefaultTopics else kept
  }

  /** Whatever the words, there are one to eight topics, all different, each
      longer than three characters. */
  lemma TopicsShape(words: seq<string>)
    ensures var topics := SelectTopics(words);
            && 1 <= |topics| <= MaxTopics
            && Distinct(topics)
            && (forall k :: 0 <= k < |topics| ==> |topics[k]| > MinWordLength)
  {
    var unique := Dedup(LongWords(words));
    var topics := SelectTopics(words);
    if unique == [] {
      DefaultTopicsShape();
    } else {
      assert topics == unique[..Min(MaxTopics, |unique|)];
      forall k | 0 <= k < |topics| ensures |topics[k]| > MinWordLength {
        assert topics[k] in unique;
      }
    }
  }

  lemma DefaultTopicsShape()
    ensures |DefaultTopics| == 4 && Distinct(DefaultTopics)
    ensures forall k :: 0 <= k < |DefaultTopics| ==> |DefaultTopics[k]| > MinWordLength
  {
    assert DefaultTopics[1][0] != DefaultTopics[3][0];
  }

  lemma DefaultTopicsLowerCase()
    ensures forall k, c :: 0 <= k < |DefaultTopics| && 0 <= c < |DefaultTopics[k]| ==> !IsUpper(DefaultTopics[k][c])
  {
  }

  /** Topics taken from words without upper-case letters have none either. */
  lemma TopicsLowerCase(words: seq<string>)
    requires forall m, c :: 0 <= m < |words| && 0 <= c < |words[m]| ==> !IsUpper(words[m][c])
    ensures var topics := SelectTopics(words);
            forall k, c :: 0 <= k < |topics| && 0 <= c < |topics[k]| ==> !IsUpper(topics[k][c])
  {
    var unique := Dedup(LongWords(words));
    var topics := SelectTopics(words);
    if unique != [] {
      assert topics == unique[..Min(MaxTopics, |unique|)];
      forall k | 0 <= k < |topics| ensures topics[k] in words {
        assert topics[k] in unique;
      }
    } else {
      DefaultTopicsLowerCase();
    }
  }

  /** A prefix of `Dedup(s)` holds values of `s` in first-occurrence order, and
      any value of `s` it leaves out occurs first after all of them. */
  lemma DedupPrefix(s: seq<string>, n: nat)
    requires n <= |Dedup(s)|
    ensures var p := Dedup(s)[..n];
            && (forall k :: 0 <= k < n ==> p[k] in s)
            && (forall i, j :: 0 <= i < j < n ==> FirstIndex(s, p[i]) < FirstIndex(s, p[j]))
            && (forall w :: w in s && w !in p ==>
                  n < |Dedup(s)| && forall k :: 0 <= k < n ==> FirstIndex(s, p[k]) < FirstIndex(s, w))
  {
    var unique := Dedup(s);
    var p := unique[..n];
    DedupInFirstOccurrenceOrder(s);
    forall k | 0 <= k < n ensures p[k] in s {
      assert p[k] == unique[k] && unique[k] in unique;
    }
    forall i, j | 0 <= i < j < n ensures FirstIndex(s, p[i]) < FirstIndex(s, p[j]) {
      assert p[i] == unique[i] && p[j] == unique[j];
    }
    forall w | w in s && w !in p
      ensures n < |unique| && forall k :: 0 <= k < n ==> FirstIndex(s, p[k]) < FirstIndex(s, w)
    {
      assert w in unique;
      var m :| 0 <= m < |unique| && unique[m] == w;
      assert m >= n;
      forall k | 0 <= k < n ensures FirstIndex(s, p[k]) < FirstIndex(s, w) {
        assert p[k] == unique[k];
      }
    }
  }

  /** With some long word, the topics are the first eight distinct long
      words in the order they first occur: every topic is a long word, topics
      keep first-occurrence order, and a long word left out comes after all
      eight topics. */
  lemma TopicsAreFirstLongWords(words: seq<string>)
    requires LongWords(words) != []
    ensures var long := LongWords(words);
            var topics := SelectTopics(words);
            && (forall k :: 0 <= k < |topics| ==> topics[k] in long)
            && (forall i, j :: 0 <= i < j < |topics| ==> FirstIndex(long, topics[i]) < FirstIndex(long, topics[j]))
            && (forall w :: w in long && w !in topics ==>
                  |topics| == MaxTopics && forall k :: 0 <= k < |topics| ==> FirstIndex(long, topics[k]) < FirstIndex(long, w))
  {
    TopicsArePrefix(words);
    DedupPrefix(LongWords(words), Min(MaxTopics, |Dedup(LongWords(words))|));
  }

  /** `topics` are words of the text longer than three characters, in the
      order they first occur there, and a long word left out of them first
      occurs after all eight of them. */
  predicate InTextOrder(words: seq<string>, topics: seq<string>) {
    && (forall k :: 0 <= k < |topics| ==> topics[k] in words && |topics[k]| > MinWordLength)
    && FirstOccurrenceOrder(words, topics)
    && OmittedOccurLater(words, topics)
  }

  predicate FirstOccurrenceOrder(words: seq<string>, topics: seq<string>) {
    forall i, j :: 0 <= i < j < |topics| && topics[i] in words && topics[j] in words ==>
      FirstIndex(words, topics[i]) < FirstIndex(words, topics[j])
  }

  predicate OmittedOccurLater(words: seq<string>, topics: seq<string>) {
    forall w :: w in words && |w| > MinWordLength && w !in topics ==>
      |topics| == MaxTopics && forall k :: 0 <= k < |topics| && topics[k] in words ==>
        FirstIndex(words, topics[k]) < FirstIndex(words, w)
  }

  /** With some long word, the topics are in the order of the text. */
  lemma TopicsInTextOrder(words: seq<string>)
    requires LongWords(words) != []
    ensures InTextOrder(words, SelectTopics(words))
  {
    var topics := SelectTopics(words);
    forall k | 0 <= k < |topics| ensures topics[k] in words && |topics[k]| > MinWordLength {
      TopicIsLongWord(words, k);
    }
    TopicsFirstOccurrenceOrder(words);
    TopicsOmittedOccurLater(words);
  }

  lemma TopicsFirstOccurrenceOrder(words: seq<string>)
    requires LongWords(words) != []
    ensures FirstOccurrenceOrder(words, SelectTopics(words))
  {
    var topics := SelectTopics(words);
    forall i, j | 0 <= i < j < |topics| && topics[i] in words && topics[j] in words
      ensures FirstIndex(words, topics[i]) < FirstIndex(words, topics[j])
    {
      TopicsPairInTextOrder(words, i, j);
    }
  }

  lemma TopicsOmittedOccurLater(words: seq<string>)
    requires LongWords(words) != []
    ensures OmittedOccurLater(words, SelectTopics(words))
  {
    var topics := SelectTopics(words);
    forall w | w in words && |w| > MinWordLength && w !in topics
      ensures |topics| == MaxTopics && forall k :: 0 <= k < |topics| && topics[k] in words ==>
                FirstIndex(words, topics[k]) < FirstIndex(words, w)
    {
      OmittedComesLater(words, w);
    }
  }

  lemma TopicIsLongWord(words: seq<string>, k: nat)
    requires LongWords(words) != [] && k < |SelectTopics(words)|
    ensures SelectTopics(words)[k] in LongWords(words)
    ensures SelectTopics(words)[k] in words && |SelectTopics(words)[k]| > MinWordLength
  {
    TopicsAreFirstLongWords(words);
  }

  lemma TopicsPairInTextOrder(words: seq<string>, i: nat, j: nat)
    requires LongWords(words) != [] && i < j < |SelectTopics(words)|
    ensures FirstIndex(words, SelectTopics(words)[i]) < FirstIndex(words, SelectTopics(words)[j])
  {
    var topics := SelectTopics(words);
    TopicsAreFirstLongWords(words);
    TopicIsLongWord(words, i);
    TopicIsLongWord(words, j);
    LongWordsKeepOrder(words, topics[i], topics[j]);
  }

  lemma OmittedComesLater(words: seq<string>, w: string)
    requires LongWords(words) != []
    requires w in words && |w| > MinWordLength && w !in SelectTopics(words)
    ensures var topics := SelectTopics(words);
            |topics| == MaxTopics && forall k :: 0 <= k < |topics| ==> FirstIndex(words, topics[k]) < FirstIndex(words, w)
  {
    var topics := SelectTopics(words);
    TopicsAreFirstLongWords(words);
    assert w in LongWords(words);
    forall k | 0 <= k < |topics| ensures FirstIndex(words, topics[k]) < FirstIndex(words, w) {
      LongWordsKeepOrder(words, topics[k], w);
    }
  }

  /** Without any long word, the topics are the fixed default. */
  lemma TopicsDefault(words: seq<string>)
    requires LongWords(words) == []
    ensures SelectTopics(words) == DefaultTopics
  {
    assert Dedup(LongWords(words)) == [];
  }

  /** With some long word, the topics are the first (at most eight) distinct
      long words. */
  lemma TopicsArePrefix(words: seq<string>)
    requires LongWords(words) != []
    ensures var unique := Dedup(LongWords(words));
            SelectTopics(words) == unique[..Min(MaxTopics, |unique|)]
  {
    var long := LongWords(words);
    assert long[0] in Dedup(long);
  }

  /** One node per topic, its label the title-cased topic. */
  function Nodes(topics: seq<string>): (r: seq<Node>)
    ensures |r| == |topics|
    ensures forall k :: 0 <= k < |r| ==> r[k].id == topics[k] && r[k].caption == Title(topics[k])
  {
    seq(|topics|, k requires 0 <= k < |topics| => Node(topics[k], Title(topics[k])))
  }

  /** Edges linking each topic to the next one, forming a path. */
  function PathEdges(ids: seq<string>): (r: seq<Edge>)
    ensures |r| == if |ids| == 0 then 0 else |ids| - 1
    ensures forall i :: 0 <= i < |r| ==> r[i] == Edge(ids[i], ids[i + 1], Relation, Weight)
  {
    if |ids| < 2 then []
    else [Edge(ids[0], ids[1], Relation, Weight)] + PathEdges(ids[1..])
  }

  /** Every path edge over distinct ids joins two of those ids, and never an
      id to itself. */
  lemma PathEdgesJoinIds(ids: seq<string>)
    requires Distinct(ids)
    ensures forall e :: e in PathEdges(ids) ==> e.from in ids && e.to in ids && e.from != e.to
  {
    var es := PathEdges(ids);
    forall e | e in es ensures e.from in ids && e.to in ids && e.from != e.to {
      var i :| 0 <= i < |es| && es[i] == e;
      assert es[i] == Edge(ids[i], ids[i + 1], Relation, Weight);
    }
  }

  function TitleAll(words: seq<string>): seq<string> {
    seq(|words|, k requires 0 <= k < |words| => Title(words[k]))
  }

  function Captions(nodes: seq<Node>): seq<string> {
    seq(|nodes|, k requires 0 <= k < |nodes| => nodes[k].caption)
  }

  /** The two insight lines: the first names at most five topics. */
  function Insights(topics: seq<string>): seq<string> {
    ["Core topics: " + JoinWith(", ", TitleAll(topics[..Min(InsightTopics, |topics|)])) + ".", Advice]
  }

  function MockGraph(topics: seq<string>): Graph {
    Graph(Nodes(topics), PathEdges(topics), Insights(topics))
  }

  function NodeIds(nodes: seq<Node>): seq<string> {
    seq(|nodes|, k requires 0 <= k < |nodes| => nodes[k].id)
  }

  /** The mock graph built from any topics: ids in topic order, one edge
      fewer than nodes, edge `i` from node `i` to node `i + 1`, and two
      insights, the first listing the labels of at most the first five nodes. */
  lemma MockGraphWellFormed(topics: seq<string>)
    requires |topics| >= 1
    ensures var g := MockGraph(topics);
            && NodeIds(g.nodes) == topics
            && |g.edges| == |g.nodes| - 1
            && (forall i :: 0 <= i < |g.edges| ==>
                  g.edges[i] == Edge(g.nodes[i].id, g.nodes[i + 1].id, Relation, Weight))
            && |g.insights| == 2
            && g.insights[0] == "Core topics: " + JoinWith(", ", Captions(g.nodes[..Min(InsightTopics, |g.nodes|)])) + "."
            && g.insights[1] == Advice
  {
    var g := MockGraph(topics);
    assert NodeIds(g.nodes) == topics;
    var named := topics[..Min(InsightTopics, |topics|)];
    assert Captions(g.nodes[..Min(InsightTopics, |g.nodes|)]) == TitleAll(named);
  }

  /** In the mock graph built from lower-case topics, each label lowers back
      to its id. */
  lemma MockGraphLabels(topics: seq<string>)
    requires forall k, c :: 0 <= k < |topics| && 0 <= c < |topics[k]| ==> !IsUpper(topics[k][c])
    ensures var g := MockGraph(topics);
            forall k :: 0 <= k < |g.nodes| ==> Lower(g.nodes[k].caption) == g.nodes[k].id
  {
    var g := MockGraph(topics);
    forall k | 0 <= k < |g.nodes| ensures Lower(g.nodes[k].caption) == g.nodes[k].id {
      TitleLower(topics[k]);
      LowerOfLower(topics[k]);
    }
  }

  /** The route.  The text is validated first; the mock graph is built from its
      words, while a model reply is cleaned and parsed, every failure of which
      becomes the same status-500 message. */
  function HandleGraph<J>(backend: Backend, text: Option<string>, parse: string -> Option<J>): (r: Response<J>)
    ensures r == Failed(400, NoTextMessage) <==> text.None? || AllIn(text.value, Whitespace)
    ensures r.Built? <==> backend.Mock? && UserText(text) != []
    ensures backend.Model? && UserText(text) != [] && backend.reply == [] ==> r == Failed(500, InvalidJsonMessage)
    ensures r.Failed? ==> r == Failed(400, NoTextMessage) || r == Failed(500, InvalidJsonMessage)
    ensures r.Forwarded? <==> backend.Model? && UserText(text) != [] && backend.reply != []
                              && parse(Prepare(backend.reply).text).Some?
    ensures r.Forwarded? ==> r.data == parse(Prepare(backend.reply).text).value
  {
    var userText := UserText(text);
    if userText == [] then Failed(400, NoTextMessage)
    else
      match backend
      case Mock => Built(MockGraph(SelectTopics(Words(userText))))
      case Model(reply) =>
        match Prepare(reply)
        case EmptyReply => Failed(500, InvalidJsonMessage)
        case ToParse(candidate) =>
          match parse(candidate)
          case None => Failed(500, InvalidJsonMessage)
          case Some(data) => Forwarded(data)
  }

  /** The shape every mock graph has: one to eight distinct nodes, each id
      longer than three characters, one edge fewer than nodes, no edge that
      dangles or loops, and two insights. */
  predicate MockShaped(g: Graph) {
    && 1 <= |g.nodes| <= MaxTopics
    && Distinct(NodeIds(g.nodes))
    && (forall k :: 0 <= k < |g.nodes| ==> |g.nodes[k].id| > MinWordLength)
    && |g.edges| == |g.nodes| - 1
    && (forall e :: e in g.edges ==> e.from in NodeIds(g.nodes) && e.to in NodeIds(g.nodes) && e.from != e.to)
    && |g.insights| == 2
  }

  /** A graph built from one to eight distinct topics longer than three
      characters has that shape. */
  lemma MockGraphShape(topics: seq<string>)
    requires 1 <= |topics| <= MaxTopics && Distinct(topics)
    requires forall k :: 0 <= k < |topics| ==> |topics[k]| > MinWordLength
    ensures MockShaped(MockGraph(topics))
  {
    var g := MockGraph(topics);
    assert NodeIds(g.nodes) == topics;
    PathEdgesJoinIds(topics);
  }

  /** A non-blank text sent to a server without a provider is answered with
      the mock graph of its words. */
  lemma MockRouteBuildsMockGraph<J>(text: Option<string>, parse: string -> Option<J>)
    requires UserText(text) != []
    ensures HandleGraph(Mock, text, parse) == Built(MockGraph(SelectTopics(Words(UserText(text)))))
  {
  }

  /** Whatever the words, the mock graph built from them has the mock shape. */
  lemma MockGraphOfWordsShaped(words: seq<string>)
    ensures MockShaped(MockGraph(SelectTopics(words)))
  {
    TopicsShape(words);
    MockGraphShape(SelectTopics(words));
  }

  /** Whatever lower-case words the mock graph is built from, each node's
      label lowers back to its id. */
  lemma MockGraphOfWordsLabels(words: seq<string>)
    requires forall m, c :: 0 <= m < |words| && 0 <= c < |words[m]| ==> !IsUpper(words[m][c])
    ensures var g := MockGraph(SelectTopics(words));
            forall k :: 0 <= k < |g.nodes| ==> Lower(g.nodes[k].caption) == g.nodes[k].id
  {
    TopicsShape(words);
    TopicsLowerCase(words);
    MockGraphLabels(SelectTopics(words));
  }

  /** End to end: whatever non-blank text reaches a server without a
      provider, the graph it gets back has the mock shape, and each node's
      label is its id title-cased, so it lowers back to the id. */
  lemma MockRouteAnswersWithGraph<J>(text: Option<string>, parse: string -> Option<J>)
    requires UserText(text) != []
    ensures HandleGraph(Mock, text, parse).Built?
    ensures MockShaped(HandleGraph(Mock, text, parse).graph)
    ensures var g := HandleGraph(Mock, text, parse).graph;
            forall k :: 0 <= k < |g.nodes| ==> Lower(g.nodes[k].caption) == g.nodes[k].id
  {
    MockRouteBuildsMockGraph(text, parse);
    MockGraphOfWordsShaped(Words(UserText(text)));
    MockGraphOfWordsLabels(Words(UserText(text)));
  }
}

=== FILE: lines.dfy ===
/**
 * Line handling used when a model reply is wrapped in a Markdown code fence:
 * Python's `str.splitlines()`, `"\n".join(lines)`, and the first and last
 * line of a "\n"-separated text.
 */
module Lines {
  import opened Strings

  /** The characters at which `str.splitlines()` ends a line: line feed,
      vertical tab, form feed, carriage return, the file, group and record
      separators, next line, and the Unicode line and paragraph separators;
      "\r\n" is one boundary. */
  predicate IsLineBreak(c: char) {
    || ('\n' <= c <= '\r')
    || ('\U{1C}' <= c <= '\U{1E}')
    || c == '\U{85}' || c == '\U{2028}' || c == '\U{2029}'
  }

  const LineBreaks: set<char> := set c: char | '\n' <= c <= '\U{2029}' && IsLineBreak(c)

  const Newline: set<char> := {'\n'}

  /** Width of the boundary that starts at `s[i]`: two for "\r\n", one otherwise. */
  function BreakWidth(s: string, i: nat): nat
    requires i < |s|
  {
    if s[i] == '\r' && i + 1 < |s| && s[i + 1] == '\n' then 2 else 1
  }

  /** `s.splitlines()`: the lines of `s` without their boundaries.  A boundary
      at the very end does not open an empty last line, so only "" has no lines. */
  function SplitLines(s: string): (r: seq<string>)
    ensures s != [] <==> r != []
    decreases |s|
  {
    if s == [] then []
    else
      var i := Run(s, LineBreaks, false);
      if i == |s| then [s]
      else [s[..i]] + SplitLines(s[i + BreakWidth(s, i)..])
  }

  /** No line holds a boundary. */
  lemma {:induction false} SplitLinesNoBreaks(s: string)
    ensures forall k :: 0 <= k < |SplitLines(s)| ==> NoneIn(SplitLines(s)[k], LineBreaks)
    decreases |s|
  {
    if s != [] {
      var i := Run(s, LineBreaks, false);
      RunOutside(s, LineBreaks);
      if i < |s| {
        var rest := s[i + BreakWidth(s, i)..];
        SplitLinesNoBreaks(rest);
        var lines := SplitLines(rest);
        assert SplitLines(s) == [s[..i]] + lines;
        assert forall k :: 1 <= k < |lines| + 1 ==> ([s[..i]] + lines)[k] == lines[k - 1];
      } else {
        assert s[..i] == s;
      }
    }
  }

  /** `s` with every line boundary written as one "\n". */
  function Normalize(s: string): (r: string)
    ensures |r| <= |s|
    decreases |s|
  {
    if s == [] then []
    else if s[0] == '\r' && |s| > 1 && s[1] == '\n' then "\n" + Normalize(s[2..])
    else if s[0] in LineBreaks then "\n" + Normalize(s[1..])
    else [s[0]] + Normalize(s[1..])
  }

  /** A text without boundaries is left as it is by `Normalize`. */
  lemma {:induction false} NormalizeAppend(p: string, q: string)
    requires NoneIn(p, LineBreaks)
    ensures Normalize(p + q) == p + Normalize(q)
    decreases |p|
  {
    if p == [] {
      assert p + q == q;
    } else {
      var s := p + q;
      assert s[0] == p[0] && s[1..] == p[1..] + q;
      assert p[0] !in LineBreaks;
      assert p[0] != '\r';
      NormalizeAppend(p[1..], q);
      assert Normalize(s) == [p[0]] + Normalize(p[1..] + q);
      assert [p[0]] + (p[1..] + Normalize(q)) == ([p[0]] + p[1..]) + Normalize(q);
      assert [p[0]] + p[1..] == p;
    }
  }

  /** A text without boundaries followed by a boundary normalises to that
      text, one "\n", and the normalised rest after the boundary. */
  lemma NormalizeAtBreak(head: string, t: string)
    requires NoneIn(head, LineBreaks)
    requires t != [] && t[0] in LineBreaks
    ensures Normalize(head + t) == head + "\n" + Normalize(t[BreakWidth(t, 0)..])
  {
    NormalizeAppend(head, t);
    var after := Normalize(t[BreakWidth(t, 0)..]);
    assert Normalize(t) == "\n" + after;
    assert head + ("\n" + after) == head + "\n" + after;
  }

  /** Joining a first part before other parts puts one separator between. */
  lemma JoinCons(sep: string, head: string, parts: seq<string>)
    requires parts != []
    ensures JoinWith(sep, [head] + parts) == head + sep + JoinWith(sep, parts)
  {
    assert ([head] + parts)[1..] == parts;
  }

  /** The boundary at `s[i]` is the one at the start of `s[i..]`. */
  lemma BreakWidthShift(s: string, i: nat)
    requires i < |s|
    ensures BreakWidth(s[i..], 0) == BreakWidth(s, i)
    ensures s[i..][BreakWidth(s, i)..] == s[i + BreakWidth(s, i)..]
  {
  }

  /** At its first boundary `s` normalises to its first line, one "\n" and
      the normalised rest after the boundary. */
  lemma NormalizeFirstBreak(s: string)
    requires Run(s, LineBreaks, false) < |s|
    ensures var i := Run(s, LineBreaks, false);
            Normalize(s) == s[..i] + "\n" + Normalize(s[i + BreakWidth(s, i)..])
  {
    RunOutside(s, LineBreaks);
    NormalizeAt(s, Run(s, LineBreaks, false));
  }

  /** At a boundary `s[i]` with none before it, `s` normalises to the text
      before it, one "\n" and the normalised rest after the boundary. */
  lemma NormalizeAt(s: string, i: nat)
    requires i < |s| && s[i] in LineBreaks && NoneIn(s[..i], LineBreaks)
    ensures Normalize(s) == s[..i] + "\n" + Normalize(s[i + BreakWidth(s, i)..])
  {
    BreakWidthShift(s, i);
    assert s == s[..i] + s[i..];
    NormalizeAtBreak(s[..i], s[i..]);
  }

  /** The lines after the first boundary of a text that does not end with
      one form a shorter text that does not end with one either. */
  lemma RestAfterBreak(s: string)
    requires s != [] && s[|s| - 1] !in LineBreaks
    requires Run(s, LineBreaks, false) < |s|
    ensures var i := Run(s, LineBreaks, false);
            var rest := s[i + BreakWidth(s, i)..];
            rest != [] && rest[|rest| - 1] == s[|s| - 1]
  {
    var i := Run(s, LineBreaks, false);
    assert BreakWidth(s, i) == 2 ==> s[i + 1] in LineBreaks;
  }

  /** Joining the lines of `s` with "\n" gives `s` back with its boundaries
      normalised, provided `s` does not end with a boundary. */
  lemma {:induction false} JoinSplitLines(s: string)
    requires s == [] || s[|s| - 1] !in LineBreaks
    ensures JoinWith("\n", SplitLines(s)) == Normalize(s)
    decreases |s|
  {
    if s != [] {
      var i := Run(s, LineBreaks, false);
      if i == |s| {
        RunOutside(s, LineBreaks);
        assert s[..i] == s;
        NormalizeAppend(s, []);
        assert s + [] == s;
      } else {
        var rest := s[i + BreakWidth(s, i)..];
        RestAfterBreak(s);
        JoinSplitLines(rest);
        NormalizeFirstBreak(s);
        JoinCons("\n", s[..i], SplitLines(rest));
      }
    }
  }

  /** What follows the first "\n" of `s`; empty when there is none. */
  function AfterFirstLine(s: string): (r: string)
    ensures '\n' in s ==> |r| < |s| && s == s[..|s| - |r| - 1] + "\n" + r
                          && '\n' !in s[..|s| - |r| - 1]
    ensures '\n' !in s ==> r == []
  {
    var i := Run(s, Newline, false);
    if i < |s| then
      assert s == s[..i] + "\n" + s[i + 1..];
      s[i + 1..]
    else []
  }

  /** What follows the last "\n" of `s`; all of `s` when there is none. */
  function LastLine(s: string): (r: string)
    ensures |r| <= |s| && r == s[|s| - |r|..] && '\n' !in r
    ensures |r| < |s| ==> s[|s| - |r| - 1] == '\n'
  {
    s[|s| - RunEnd(s, Newline, false)..]
  }

  /** What precedes the last "\n" of `s`; empty when there is none. */
  function BeforeLastLine(s: string): (r: string)
    ensures '\n' in s ==> s == r + "\n" + LastLine(s)
    ensures '\n' !in s ==> r == []
  {
    var n := |LastLine(s)|;
    if n < |s| then
      assert s == s[..|s| - n - 1] + "\n" + LastLine(s);
      s[..|s| - n - 1]
    else []
  }

  /** Of lines joined with "\n", the text after the first "\n" is the join of
      all lines but the first. */
  lemma AfterFirstLineOfJoin(lines: seq<string>)
    requires |lines| >= 1
    requires forall k :: 0 <= k < |lines| ==> '\n' !in lines[k]
    ensures AfterFirstLine(JoinWith("\n", lines)) == JoinWith("\n", lines[1..])
  {
    var s := JoinWith("\n", lines);
    if |lines| >= 2 {
      var first := lines[0];
      var rest := JoinWith("\n", lines[1..]);
      assert s == first + "\n" + rest;
      assert s[|first|] == '\n';
      var r := AfterFirstLine(s);
      var m := |s| - |r| - 1;
      assert forall k :: 0 <= k < |first| ==> s[k] == first[k];
      assert m == |first|;
    }
  }

  /** The last line of `a + "\n" + b` is `b` when `b` holds no "\n", and `a`
      comes before it. */
  lemma LastLineAppend(a: string, b: string)
    requires '\n' !in b
    ensures LastLine(a + "\n" + b) == b
    ensures BeforeLastLine(a + "\n" + b) == a
  {
    var s := a + "\n" + b;
    var r := LastLine(s);
    assert s[|a|] == '\n';
    assert forall k :: |a| < k < |s| ==> s[k] == b[k - |a| - 1];
    assert |r| == |b|;
    assert r == b;
    var before := BeforeLastLine(s);
    assert s == before + "\n" + b;
    assert |before| == |a|;
    assert before == s[..|a|] == a;
  }

  /** Of lines joined with "\n", the text after the last "\n" is the last line
      and the text before it is the join of the other lines. */
  lemma LastLineOfJoin(lines: seq<string>)
    requires |lines| >= 1
    requires forall k :: 0 <= k < |lines| ==> '\n' !in lines[k]
    ensures LastLine(JoinWith("\n", lines)) == lines[|lines| - 1]
    ensures BeforeLastLine(JoinWith("\n", lines)) == JoinWith("\n", lines[..|lines| - 1])
  {
    if |lines| >= 2 {
      JoinWithSnoc("\n", lines);
      LastLineAppend(JoinWith("\n", lines[..|lines| - 1]), lines[|lines| - 1]);
    }
  }
}

=== FILE: strings.dfy ===
/**
 * The few Python string built-ins the backend relies on, stated on `seq<char>`:
 * `str.isspace`, `str.strip()` and `str.strip(chars)`, `str.split()`,
 * `sep.join(parts)`, and the ASCII part of `str.lower()` and `str.title()`.
 */
module Strings {

  /** Python's `str.isspace()`: the ASCII tab, line feed, vertical tab, form
      feed and carriage return, the four information separators, space, next
      line (U+0085), and the Unicode spaces and line and paragraph separators. */
  predicate IsSpace(c: char) {
    || ('\t' <= c <= '\r')
    || ('\U{1C}' <= c <= ' ')
    || c == '\U{85}' || c == '\U{A0}' || c == '\U{1680}'
    || ('\U{2000}' <= c <= '\U{200A}')
    || c == '\U{2028}' || c == '\U{2029}' || c == '\U{202F}' || c == '\U{205F}' || c == '\U{3000}'
  }

  /** The characters for which `str.isspace()` holds; `\s` in a `str` regular
      expression and the argument-less `strip()`/`split()` use the same set. */
  const Whitespace: set<char> := set c: char | '\t' <= c <= '\U{3000}' && IsSpace(c)

  predicate NoneIn(s: string, cs: set<char>) {
    forall k :: 0 <= k < |s| ==> s[k] !in cs
  }

  predicate AllIn(s: string, cs: set<char>) {
    forall k :: 0 <= k < |s| ==> s[k] in cs
  }

  function Last(s: string): char
    requires s != []
  {
    s[|s| - 1]
  }

  predicate StartsWith(s: string, prefix: string) {
    |prefix| <= |s| && s[..|prefix|] == prefix
  }

  /** Neither end of `s` is a character of `cs`: what `strip(cs)` leaves. */
  predicate Stripped(s: string, cs: set<char>) {
    s == [] || (s[0] !in cs && s[|s| - 1] !in cs)
  }

  /** Length of the longest prefix of `s` whose characters are all in `cs`
      (`member`) or all outside it (`!member`). */
  function Run(s: string, cs: set<char>, member: bool): (n: nat)
    ensures n <= |s|
    ensures forall k :: 0 <= k < n ==> (s[k] in cs) == member
    ensures n < |s| ==> (s[n] in cs) != member
    decreases |s|
  {
    if s == [] || (s[0] in cs) != member then 0 else 1 + Run(s[1..], cs, member)
  }

  /** The leading run of non-members holds no member. */
  lemma RunOutside(s: string, cs: set<char>)
    ensures NoneIn(s[..Run(s, cs, false)], cs)
  {
    var n := Run(s, cs, false);
    forall k | 0 <= k < n ensures s[..n][k] !in cs {
      assert s[..n][k] == s[k];
    }
  }

  /** A text made of members is one run of members. */
  lemma {:induction false} RunAllIn(s: string, cs: set<char>)
    requires AllIn(s, cs)
    ensures Run(s, cs, true) == |s|
    decreases |s|
  {
    if s != [] {
      RunAllIn(s[1..], cs);
    }
  }

  /** Length of the longest suffix of `s` whose characters are all in `cs`
      (`member`) or all outside it (`!member`). */
  function RunEnd(s: string, cs: set<char>, member: bool): (n: nat)
    ensures n <= |s|
    ensures forall k :: |s| - n <= k < |s| ==> (s[k] in cs) == member
    ensures n < |s| ==> (s[|s| - n - 1] in cs) != member
    decreases |s|
  {
    if s == [] || (s[|s| - 1] in cs) != member then 0 else 1 + RunEnd(s[..|s| - 1], cs, member)
  }

  /** `s.lstrip(cs)` */
  function TrimStart(s: string, cs: set<char>): (r: string)
    ensures |r| <= |s| && r == s[|s| - |r|..]
    ensures AllIn(s[..|s| - |r|], cs)
    ensures r == [] || r[0] !in cs
  {
    s[Run(s, cs, true)..]
  }

  /** `s.rstrip(cs)` */
  function TrimEnd(s: string, cs: set<char>): (r: string)
    ensures |r| <= |s| && r == s[..|r|]
    ensures AllIn(s[|r|..], cs)
    ensures r == [] || r[|r| - 1] !in cs
  {
    s[..|s| - RunEnd(s, cs, true)]
  }

  /** A character outside `cs` lies before the tail of `s` that `cs` covers. */
  lemma BeforeCoveredTail(s: string, cs: set<char>, b: nat, i: nat)
    requires b <= |s| && AllIn(s[b..], cs)
    requires i < |s| && s[i] !in cs
    ensures i < b
  {
    assert forall k :: b <= k < |s| ==> s[b..][k - b] == s[k];
  }

  /** When the last character outside `cs` is at `q`, `rstrip` cuts right
      after it. */
  lemma TrimEndAfterLast(s: string, cs: set<char>, q: nat)
    requires q < |s| && s[q] !in cs && AllIn(s[q + 1..], cs)
    ensures TrimEnd(s, cs) == s[..q + 1]
  {
    var b := |TrimEnd(s, cs)|;
    BeforeCoveredTail(s, cs, b, q);
    assert forall k :: q < k < |s| ==> s[q + 1..][k - (q + 1)] == s[k];
  }

  /** `s.strip(cs)`: what is left of `s` once every character of `cs` is
      dropped from both ends. */
  function StripSet(s: string, cs: set<char>): (r: string)
    ensures |r| <= |s| && Stripped(r, cs)
  {
    TrimEnd(TrimStart(s, cs), cs)
  }

  /** The stripped text is the middle of `s` that starts after its leading
      run of `cs`, and what lies on either side of it is made of `cs`. */
  lemma {:induction false} StripSetMiddle(s: string, cs: set<char>)
    ensures Run(s, cs, true) + |StripSet(s, cs)| <= |s|
    ensures StripSet(s, cs) == s[Run(s, cs, true)..Run(s, cs, true) + |StripSet(s, cs)|]
    ensures AllIn(s[..Run(s, cs, true)], cs)
    ensures AllIn(s[Run(s, cs, true) + |StripSet(s, cs)|..], cs)
  {
    var t := TrimStart(s, cs);
    MiddleOfSuffix(s, t, TrimEnd(t, cs), cs);
    assert |s| - |t| == Run(s, cs, true);
    RunInside(s, cs);
  }

  /** A prefix `r` of the suffix `t` of `s` that leaves only `cs` after it is
      a slice of `s`. */
  lemma MiddleOfSuffix(s: string, t: string, r: string, cs: set<char>)
    requires |t| <= |s| && t == s[|s| - |t|..]
    requires |r| <= |t| && r == t[..|r|] && AllIn(t[|r|..], cs)
    ensures r == s[|s| - |t|..|s| - |t| + |r|] && AllIn(s[|s| - |t| + |r|..], cs)
  {
    assert t[|r|..] == s[|s| - |t| + |r|..];
  }

  /** The leading run of members holds only members. */
  lemma RunInside(s: string, cs: set<char>)
    ensures AllIn(s[..Run(s, cs, true)], cs)
  {
    var n := Run(s, cs, true);
    assert forall k :: 0 <= k < n ==> s[..n][k] == s[k];
  }

  /** Only a text made of `cs` strips to "". */
  lemma StripSetEmpty(s: string, cs: set<char>)
    ensures StripSet(s, cs) == [] <==> AllIn(s, cs)
  {
    var t := TrimStart(s, cs);
    var i := |s| - |t|;
    if AllIn(s, cs) {
      RunAllIn(s, cs);
    }
    if StripSet(s, cs) == [] {
      assert AllIn(t, cs);
      assert t == s[i..];
      AllInSplit(s, i, cs);
    }
  }

  /** A text whose two halves are covered by `cs` is covered by `cs`. */
  lemma AllInSplit(s: string, i: nat, cs: set<char>)
    requires i <= |s| && AllIn(s[..i], cs) && AllIn(s[i..], cs)
    ensures AllIn(s, cs)
  {
    forall k | 0 <= k < |s| ensures s[k] in cs {
      if k < i {
        assert s[..i][k] == s[k];
      } else {
        assert s[i..][k - i] == s[k];
      }
    }
  }

  /** `s.strip()` */
  function Strip(s: string): (r: string)
    ensures Stripped(r, Whitespace)
    ensures r == [] <==> AllIn(s, Whitespace)
  {
    StripSetEmpty(s, Whitespace);
    StripSet(s, Whitespace)
  }

  lemma SpaceIsWhitespace()
    ensures ' ' in Whitespace
  {
  }

  /** `s.split()` when `seps` is `Whitespace`: the maximal runs of characters
      outside `seps`, in order. */
  function Split(s: string, seps: set<char>): seq<string>
    decreases |s|
  {
    var t := TrimStart(s, seps);
    if t == [] then []
    else
      var n := Run(t, seps, false);
      [t[..n]] + Split(t[n..], seps)
  }

  /** Every field is a non-empty run of non-separators. */
  lemma {:induction false} SplitFields(s: string, seps: set<char>)
    ensures forall k :: 0 <= k < |Split(s, seps)| ==> Split(s, seps)[k] != [] && NoneIn(Split(s, seps)[k], seps)
    decreases |s|
  {
    var t := TrimStart(s, seps);
    if t != [] {
      var n := Run(t, seps, false);
      SplitFields(t[n..], seps);
      var rest := Split(t[n..], seps);
      var r := Split(s, seps);
      assert r == [t[..n]] + rest;
      RunOutside(t, seps);
      assert t[..n] != [];
      forall k | 0 < k < |r| ensures r[k] != [] && NoneIn(r[k], seps) {
        assert r[k] == rest[k - 1];
      }
    }
  }

  /** A text has no fields exactly when it is made of separators only. */
  lemma SplitEmpty(s: string, seps: set<char>)
    ensures Split(s, seps) == [] <==> AllIn(s, seps)
  {
    var t := TrimStart(s, seps);
    if AllIn(s, seps) {
      assert Run(s, seps, true) == |s|;
    } else {
      assert t != [] by {
        var k :| 0 <= k < |s| && s[k] !in seps;
        assert k >= |s| - |t|;
      }
    }
  }

  /** `sep.join(parts)` */
  function JoinWith(sep: string, parts: seq<string>): (r: string)
    decreases |parts|
  {
    if |parts| == 0 then ""
    else if |parts| == 1 then parts[0]
    else parts[0] + sep + JoinWith(sep, parts[1..])
  }

  /** The last part of a join of two or more parts is appended after a separator. */
  lemma {:induction false} JoinWithSnoc(sep: string, parts: seq<string>)
    requires |parts| >= 2
    ensures JoinWith(sep, parts) == JoinWith(sep, parts[..|parts| - 1]) + sep + parts[|parts| - 1]
    decreases |parts|
  {
    if |parts| > 2 {
      var tail := parts[1..];
      JoinWithSnoc(sep, tail);
      assert tail[..|tail| - 1] == parts[..|parts| - 1][1..];
    }
  }

  /** A leading separator does not change the split. */
  lemma SplitSkipSeparator(c: char, x: string, seps: set<char>)
    requires c in seps
    ensures Split([c] + x, seps) == Split(x, seps)
  {
    var s := [c] + x;
    assert s[1..] == x;
    assert Run(s, seps, true) == 1 + Run(x, seps, true);
    assert TrimStart(s, seps) == TrimStart(x, seps);
  }

  /** A leading run of non-separators ended by a separator or the end of the
      string is the first field. */
  lemma SplitFirstField(w: string, x: string, seps: set<char>)
    requires w != [] && NoneIn(w, seps)
    requires x == [] || x[0] in seps
    ensures Split(w + x, seps) == [w] + Split(x, seps)
  {
    var s := w + x;
    assert s[0] == w[0];
    assert TrimStart(s, seps) == s;
    var n := Run(s, seps, false);
    assert forall k :: 0 <= k < |w| ==> s[k] == w[k];
    assert |w| < |s| ==> s[|w|] == x[0];
    assert n == |w|;
    assert s[..n] == w && s[n..] == x;
  }

  /** A field followed by a space and a text whose fields are `tail` has
      that field followed by `tail` as its fields. */
  lemma SplitFieldSpace(w: string, rest: string, tail: seq<string>, seps: set<char>)
    requires ' ' in seps
    requires w != [] && NoneIn(w, seps)
    requires Split(rest, seps) == tail
    ensures Split(w + " " + rest, seps) == [w] + tail
  {
    assert w + " " + rest == w + (" " + rest);
    SplitFirstField(w, " " + rest, seps);
    SplitSkipSeparator(' ', rest, seps);
  }

  /** Joining the parts back with a space undoes `split()` when every part is a
      non-empty run of non-separators. */
  lemma {:induction false} SplitJoin(parts: seq<string>, seps: set<char>)
    requires ' ' in seps
    requires forall k :: 0 <= k < |parts| ==> parts[k] != [] && NoneIn(parts[k], seps)
    ensures Split(JoinWith(" ", parts), seps) == parts
    decreases |parts|
  {
    if |parts| == 1 {
      SplitFirstField(parts[0], [], seps);
      assert parts[0] + [] == parts[0];
    } else if |parts| > 1 {
      var tail := parts[1..];
      SplitJoin(tail, seps);
      SplitFieldSpace(parts[0], JoinWith(" ", tail), tail, seps);
      assert parts == [parts[0]] + tail;
    }
  }

  /** `s` with every run of separators written as one space, and nothing
      written for a run at either end: `started` says a character has been
      written, `gap` that a run of separators followed it. */
  function Squeeze(s: string, seps: set<char>, started: bool, gap: bool): string
    decreases |s|
  {
    if s == [] then []
    else if s[0] in seps then Squeeze(s[1..], seps, started, started)
    else (if gap then " " else "") + [s[0]] + Squeeze(s[1..], seps, true, false)
  }

  /** A run of separators is skipped, leaving a gap when something was
      written before it. */
  lemma {:induction false} SqueezeSkip(y: string, z: string, seps: set<char>, started: bool, gap: bool)
    requires AllIn(y, seps) && (gap ==> started)
    ensures Squeeze(y + z, seps, started, gap) == Squeeze(z, seps, started, gap || (y != [] && started))
    decreases |y|
  {
    if y == [] {
      assert y + z == z;
    } else {
      assert (y + z)[0] == y[0] && (y + z)[1..] == y[1..] + z;
      SqueezeSkip(y[1..], z, seps, started, started);
    }
  }

  /** A field is written as it is, after the space owed to a gap. */
  lemma {:induction false} SqueezeField(w: string, z: string, seps: set<char>, started: bool, gap: bool)
    requires w != [] && NoneIn(w, seps)
    ensures Squeeze(w + z, seps, started, gap) == (if gap then " " else "") + w + Squeeze(z, seps, true, false)
    decreases |w|
  {
    assert (w + z)[0] == w[0] && (w + z)[1..] == w[1..] + z;
    var pre: string := if gap then " " else "";
    if |w| == 1 {
      assert [w[0]] == w && w[1..] + z == z;
    } else {
      SqueezeField(w[1..], z, seps, true, false);
      Regroup(pre, [w[0]], w[1..], Squeeze(z, seps, true, false));
      assert [w[0]] + w[1..] == w;
    }
  }

  /** The fields of `s` joined with spaces, after the space owed to an
      earlier field when `s` goes on after a run of separators. */
  function Joined(s: string, seps: set<char>, started: bool, gap: bool): string {
    if Split(s, seps) == [] then []
    else (if started && (gap || s[0] in seps) then " " else "") + JoinWith(" ", Split(s, seps))
  }

  /** A part put in front of a join. */
  lemma JoinWithCons(p: string, rest: seq<string>)
    ensures JoinWith(" ", [p] + rest) == if rest == [] then p else p + " " + JoinWith(" ", rest)
  {
    if rest != [] {
      assert ([p] + rest)[1..] == rest;
    }
  }

  lemma Regroup(a: string, b: string, c: string, d: string)
    ensures a + (b + c + d) == a + b + (c + d)
  {
  }

  /** The fields of a text with a field after its leading separators: that
      field, then the fields of a rest that is empty or starts with a
      separator. */
  lemma SplitAfterSeparators(s: string, seps: set<char>, r: nat, n: nat)
    requires r == Run(s, seps, true) && s[r..] != [] && n == Run(s[r..], seps, false)
    ensures Split(s, seps) == [s[r..][..n]] + Split(s[r..][n..], seps)
    ensures s[r..][n..] == [] || s[r..][n..][0] in seps
  {
  }

  /** A field written after `pre` and followed by the spaced join of `rest`. */
  lemma JoinAfterField(pre: string, w: string, rest: seq<string>)
    ensures pre + w + (if rest == [] then [] else " " + JoinWith(" ", rest)) == pre + JoinWith(" ", [w] + rest)
  {
    JoinWithCons(w, rest);
    if rest == [] {
      assert pre + w + [] == pre + w;
    } else {
      Regroup(pre, w, " ", JoinWith(" ", rest));
    }
  }

  /** Joining the fields of `s` is `Squeeze` from any state. */
  lemma {:induction false} JoinSplitFrom(s: string, seps: set<char>, started: bool, gap: bool)
    requires gap ==> started
    ensures Squeeze(s, seps, started, gap) == Joined(s, seps, started, gap)
    decreases |s|
  {
    var r := Run(s, seps, true);
    var t := s[r..];
    assert s == s[..r] + t;
    SqueezeSkip(s[..r], t, seps, started, gap);
    var gap' := gap || (r > 0 && started);
    if t != [] {
      var n := Run(t, seps, false);
      var w, z := t[..n], t[n..];
      RunOutside(t, seps);
      assert t == w + z;
      SqueezeField(w, z, seps, started, gap');
      JoinSplitFrom(z, seps, true, false);
      SplitAfterSeparators(s, seps, r, n);
      var pre: string := if gap' then " " else "";
      JoinAfterField(pre, w, Split(z, seps));
    }
  }

  /** `" ".join(s.split())` is `s` with each run of separators written as one
      space and those at either end dropped: `split()` loses nothing but
      separators. */
  lemma JoinSplit(s: string, seps: set<char>)
    ensures JoinWith(" ", Split(s, seps)) == Squeeze(s, seps, false, false)
  {
    JoinSplitFrom(s, seps, false, false);
  }

  predicate IsUpper(c: char) { 'A' <= c <= 'Z' }
  predicate IsLower(c: char) { 'a' <= c <= 'z' }
  predicate IsLetter(c: char) { IsUpper(c) || IsLower(c) }

  function LowerChar(c: char): char {
    if IsUpper(c) then (c as int + 32) as char else c
  }

  function UpperChar(c: char): char {
    if IsLower(c) then (c as int - 32) as char else c
  }

  /** `s.lower()` on ASCII letters; every other character is left as it is. */
  function Lower(s: string): (r: string)
    ensures |r| == |s|
    ensures forall k :: 0 <= k < |s| ==> !IsUpper(r[k])
    ensures forall k :: 0 <= k < |s| ==>
              if IsUpper(s[k]) then IsLower(r[k]) && UpperChar(r[k]) == s[k] else r[k] == s[k]
  {
    seq(|s|, k requires 0 <= k < |s| => LowerChar(s[k]))
  }

  /** `s.title()` on ASCII letters: a letter that follows a letter is lowered,
      any other letter is raised. */
  function Title(s: string): (r: string)
    ensures |r| == |s|
    ensures forall k :: 0 < k < |s| && IsLetter(s[k - 1]) ==> !IsUpper(r[k])
    ensures forall k :: 0 <= k < |s| && (k == 0 || !IsLetter(s[k - 1])) ==> !IsLower(r[k])
  {
    seq(|s|, k requires 0 <= k < |s| =>
      if k > 0 && IsLetter(s[k - 1]) then LowerChar(s[k]) else UpperChar(s[k]))
  }

  /** Lowering a text that has no upper-case letter leaves it as it is. */
  lemma LowerOfLower(s: string)
    requires forall k :: 0 <= k < |s| ==> !IsUpper(s[k])
    ensures Lower(s) == s
  {
  }

  /** Title-casing changes case and nothing else: lowering the title-cased text
      gives back the lowered text. */
  lemma TitleLower(s: string)
    ensures Lower(Title(s)) == Lower(s)
  {
    forall k | 0 <= k < |s| ensures Lower(Title(s))[k] == Lower(s)[k] {
      var c := s[k];
      if IsUpper(c) {
        assert LowerChar(UpperChar(c)) == LowerChar(c);
      } else if IsLower(c) {
        assert (c as int - 32) as char == UpperChar(c);
        assert LowerChar(UpperChar(c)) == c;
      }
    }
  }
}
